=== FILE: README.md ===
# rOCCI-server core, modelled in Dafny

This project models the pure core under the rOCCI-server REST gateway and proves properties of it. rOCCI-server serves OCCI, the Open Cloud Computing Interface, in front of several cloud backends. The model covers these parts:

- **The compute kind** (`compute_kind.dfy`). It holds the four compute actions and the three-state machine with its action-labelled edges. It also holds the attribute table and the per-instance copy of the machine.
- **The OpenNebula operation table** (`one_dispatch.dfy`). `OPERATIONS` maps a kind identifier and a signal or action term to an operation name. The same file models `check_rc`, `generate_occi_id` and the os_tpl term of a template name.
- **The Azure service wrapper** (`azure_connect.dfy`, `errors.dfy`). `handle_service_error` sorts an HTTP status into exactly one error of the `Backends::Errors` family. `rescue_azure_service` lets the family's own errors through and converts every other `StandardError`. Exceptions outside `StandardError` escape its bare `rescue` unchanged.
- **The Azure template codecs** (`azure_os_tpl.dfy`, `azure_resource_tpl.dfy`). An image name becomes `uuid_<name>`. A VM size name becomes `uuid_<normalised name>__<sha1 of the name>`. Terms are decoded with the anchored patterns, whose `^`/`$` Ruby reads as line anchors.
- **The request and response rules**:
  - the server uri, `get '*'`, `post '*'`, `put '*'` and the `after` pruning (`server.dfy`);
  - the storage controller's statuses and bodies (`storage_controller.dfy`);
  - the OpenNebula storage adapter's datastore choice, action enabling, identifiers and `create` (`one_storage.dfy`);
  - Azure `compute_create` and the unimplemented operations (`azure_compute.dfy`);
  - the EC2 public, private and VPC network attach/detach helpers (`ec2_network.dfy`).

The EC2 helpers work against an abstract account of elastic addresses.

Ruby string behaviour is written out in `strings.dfy`:
- `split(sep).last` ignores trailing empty fields;
- `rpartition`;
- `chomp` with and without an argument;
- awk-style `split(' ')`;
- ASCII `downcase`;
- the Unicode `[[:space:]]` that `blank?` matches.

`seqs.dfy` holds the first-match search behind `detect`/`select { }.first` and hash lookup. `wrappers.dfy` holds `Option` and `Result`.

SHA-1 (`Digest::SHA1.hexdigest`) is a function parameter that returns forty lower-case hex digits. So are the name-based UUID of `generate_occi_id` and every provider call: Azure services, EC2 client calls, and OpenNebula pools and image calls. A raised Ruby exception is an `Err` carrying a `Raised` value. A Ruby `nil` is `None`.

## Model

| member | source | states |
|---|---|---|
| ComputeKind.Next | lib/ruby/cloud/occi/infrastructure/Compute.rb:53-58 | a state and an action have a successor exactly when some declared edge leaves that state with that label, and the successor is that edge's target |
| ComputeKind.ComputeMachineShape | lib/ruby/cloud/occi/infrastructure/Compute.rb:49-60 | the machine starts in `active`, lists exactly the three states, and no two edges share a source and a label; edge labels are typed by the four declared actions |
| ComputeKind.ComputeMachineIsDiagram | lib/ruby/cloud/occi/infrastructure/Compute.rb:53-58 | the declared edges fire exactly the diagram: restart is the only way out of inactive, stop and suspend leave active, start is the only way out of suspended, and nothing else fires |
| ComputeKind.Fire | lib/ruby/cloud/occi/infrastructure/Compute.rb:53-60 | firing succeeds exactly when an edge with that source and label exists, lands on an edge target, and in a deterministic machine lands on the one target there is |
| ComputeKind.InstanceKindTypeIsKindIdentifier | lib/ruby/cloud/occi/infrastructure/Compute.rb:66-84 | the kind type each instance records is the kind scheme followed by the term `compute` |
| ComputeKind.StateIsTheOnlyFixedAttribute | lib/ruby/cloud/occi/infrastructure/Compute.rb:70-77 | a name is writable exactly when it is a table attribute other than `occi.compute.state`; a set of names is complete exactly when it holds `occi.compute.state`; that attribute is the one immutable and mandatory entry |
| ComputeKind.NewCompute | lib/ruby/cloud/occi/infrastructure/Compute.rb:82-86 | a new compute records the compute kind type and its attributes, carries the compute machine and starts in its initial state |
| ComputeKind.Trigger | lib/ruby/cloud/occi/infrastructure/Compute.rb:82-86 | triggering succeeds exactly for a known instance with a matching edge; the instance moves along that edge and every other instance is unchanged |
| ComputeKind.SuspendThenStart | lib/ruby/cloud/occi/infrastructure/Compute.rb:55-58 | suspending an active compute reaches suspended, and starting an active compute is refused |
| OneDispatch.ComputeOperationsRule | lib/occi/backend/opennebula/opennebula.rb:66-77 | the compute table answers deploy, update_state and delete, then start, stop, restart and suspend, each with `compute_<signal>` |
| OneDispatch.NetworkOperationsRule | lib/occi/backend/opennebula/opennebula.rb:80-89 | the network table answers the three generic signals, then up and down, each with `network_<signal>` |
| OneDispatch.StorageOperationsRule | lib/occi/backend/opennebula/opennebula.rb:92-104 | the storage table answers the three generic signals, then online, offline, backup, snapshot and resize, each with `storage_<signal>` |
| OneDispatch.OperationsNamingRule | lib/occi/backend/opennebula/opennebula.rb:64-105 | the table has exactly the compute, network and storage kinds; a lookup succeeds exactly for a generic signal or one of the kind's own actions; the operation found is `<kind term>_<signal>` |
| OneDispatch.ComputeActionsDispatch | lib/occi/backend/opennebula/opennebula.rb:74-77 | every action of the compute kind resolves to `compute_<action term>` |
| OneDispatch.CheckRc | lib/occi/backend/opennebula/opennebula.rb:112-117 | `check_rc` fails exactly for an Error value, with the OpenNebula message prefix before the error text |
| OneDispatch.GenerateOcciIdProperties | lib/occi/backend/opennebula/opennebula.rb:121-125 | passing a Kind gives the same id as passing its type identifier, and different seeds hash different names |
| OneDispatch.ReplaceNonWord | lib/occi/backend/opennebula/opennebula.rb:166 | `gsub(/\W/, '_')` keeps the length and replaces exactly the non-word characters |
| OneDispatch.TemplateTerm | lib/occi/backend/opennebula/opennebula.rb:166 | an os_tpl term holds only word characters and no upper-case letter |
| OneDispatch.TemplateTermLength | lib/occi/backend/opennebula/opennebula.rb:166 | a term is at most two characters shorter than its name, and as long as the name when the name ends in neither `\n` nor `\r` |
| OneDispatch.TemplateTermPositions | lib/occi/backend/opennebula/opennebula.rb:166 | each term character is the lower-cased name character at that position, or `_` when it is not a word character |
| OneDispatch.TemplateTermIdempotent | lib/occi/backend/opennebula/opennebula.rb:166 | deriving the term of a term changes nothing |
| Seqs.Lookup | lib/occi/backend/opennebula/opennebula.rb:64-105 | hash lookup finds nothing exactly when the key is absent, and otherwise answers the value of the last entry with that key, as a Ruby hash literal keeps the later of two equal keys |
| AzureConnect.HandleServiceError | lib/backends/azure/helpers/azure_connect_helper.rb:40-70 | every status gives one error of the family with message `<type>: <description>`; 503/504, 401, 403, 405/406, 400, 404 and 409 give their listed kinds, and `ResourceActionError` is given exactly for every other status |
| AzureConnect.CodeSetsDisjoint | lib/backends/azure/helpers/azure_connect_helper.rb:44-69 | no status code is listed under two error kinds |
| AzureConnect.RescueAzureService | lib/backends/azure/helpers/azure_connect_helper.rb:17-32 | no block gives `StubError`; a returned value passes through; an HTTP error goes through the classifier; the family's own errors and exceptions outside `StandardError` pass unchanged; any other error becomes `ResourceActionError` with its message; every failure belongs to the family or is a non-standard exception passed through |
| AzureOsTpl.ImageToTerm | lib/backends/azure/os_tpl.rb:61-63 | the term is `uuid_` followed by the image name, and by nothing for a nil name |
| AzureOsTpl.TermToImageName | lib/backends/azure/os_tpl.rb:67-70 | a decoded name is non-empty, holds no line break and occurs in the term right after `uuid_` |
| AzureOsTpl.SingleLineTerm | lib/backends/azure/os_tpl.rb:5 | a one-line term decodes exactly when it is `uuid_` followed by at least one character, to what follows the prefix |
| AzureOsTpl.ImageTermRoundTrip | lib/backends/azure/os_tpl.rb:61-70 | a non-empty image name without a line break is decoded back from its term |
| AzureOsTpl.NilImageTermDecodesToNil | lib/backends/azure/os_tpl.rb:61-70 | the term of a nil name does not decode |
| AzureOsTpl.ImageTermRoundTripLimits | lib/backends/azure/os_tpl.rb:61-70 | a name whose first line is non-empty and is followed by a line break decodes to that first line only, whatever follows |
| AzureOsTpl.EmptyFirstLineDecodesLater | lib/backends/azure/os_tpl.rb:61-70 | a name whose first line is empty is not decoded from its first line: `\nuuid_x` comes back as `x` |
| AzureOsTpl.FirstNamed | lib/backends/azure/os_tpl.rb:39-41 | answers the first listing entry that is an image with the name, and nothing when no entry is |
| AzureOsTpl.OsTplGet | lib/backends/azure/os_tpl.rb:35-42 | nil when the term does not decode; otherwise `NoMethodError` exactly when the listing holds a nil entry, else the first listed image whose name is the decoded name, and nil only when no listed image has it |
| AzureOsTpl.MixinFromImage | lib/backends/azure/os_tpl.rb:48-57 | the mixin has the encoded term, location `/mixin/os_tpl/<term>/`, depends on os_tpl, applies to compute, takes its title from the name or `unknown`, and has the backend's os_tpl scheme |
| AzureOsTpl.Present | lib/backends/azure/os_tpl.rb:18-20 | the images kept from a listing are exactly its non-nil entries |
| AzureOsTpl.OsTplList | lib/backends/azure/os_tpl.rb:15-23 | the list has exactly one mixin per non-nil image, in listing order, the `i`-th built from the `i`-th such image |
| AzureOsTpl.OsTplListCovers | lib/backends/azure/os_tpl.rb:15-23 | every listed image has its mixin in the list, and every mixin of the list comes from a listed image |
| AzureOsTpl.ListedTermsResolve | lib/backends/azure/os_tpl.rb:15-42 | the term of a listed image with a non-empty one-line name is found again by `os_tpl_get`, as an image of that name, when the listing holds no nil entry; with a nil entry the lookup raises |
| AzureOsTpl.GetAnswersImage | lib/backends/azure/os_tpl.rb:25-42 | as written, the lookup of a listed image's term in a listing without nil entries answers an image, whose name is not the term asked for |
| AzureOsTpl.OsTplGetListed | lib/backends/azure/os_tpl.rb:25-27 | the corrected lookup answers a listed mixin carrying exactly the given term, and nil exactly when no listed mixin has it |
| AzureOsTpl.ListThenGetListed | lib/backends/azure/os_tpl.rb:15-27 | with the corrected lookup, every listed image is found by its term as an os_tpl mixin carrying that term, even for a nil name or one with line breaks |
| AzureResourceTpl.SizeChar | lib/backends/azure/resource_tpl.rb:63-64 | each character becomes a size-name character, and stays other than `_` exactly when it is a letter, digit or hyphen |
| AzureResourceTpl.ReplaceChars | lib/backends/azure/resource_tpl.rb:63-64 | `downcase` then `gsub(/[^a-z0-9\-]/, '_')` acts position by position and keeps the length |
| AzureResourceTpl.Squeeze | lib/backends/azure/resource_tpl.rb:65 | `gsub(/_+/, '_')` leaves no two adjacent underscores, keeps the first and last character and every non-underscore character |
| AzureResourceTpl.UnderscoreSlots | lib/backends/azure/resource_tpl.rb:65-66 | a string has one underscore slot more than it has other characters, and its first slot is set exactly when it starts with `_` |
| AzureResourceTpl.SlotsDetermine | lib/backends/azure/resource_tpl.rb:65-66 | two strings without a run of underscores are equal when their non-underscore characters, in order, and their underscore slots are |
| AzureResourceTpl.SqueezeKeepsOrder | lib/backends/azure/resource_tpl.rb:65 | squeezing keeps the non-underscore characters in order and an underscore exactly between the characters where there was a run |
| AzureResourceTpl.SqueezeIsUnique | lib/backends/azure/resource_tpl.rb:65 | the squeezed string is the only string without a run of underscores that keeps the non-underscore characters and the underscore slots |
| AzureResourceTpl.TrimUnderscores | lib/backends/azure/resource_tpl.rb:66 | `gsub(/^_\|_$/, '')` keeps every non-underscore character and leaves no underscore at either end of a squeezed name |
| AzureResourceTpl.TrimKeepsNonUnderscores | lib/backends/azure/resource_tpl.rb:66 | trimming keeps the non-underscore characters in order |
| AzureResourceTpl.TrimSlots | lib/backends/azure/resource_tpl.rb:66 | on a string without a run of underscores, trimming clears the first and last underscore slot and keeps every other one; a string of underscores only becomes empty |
| AzureResourceTpl.Normalise | lib/backends/azure/resource_tpl.rb:63-66 | the normalised name holds only `[a-z0-9-_]`, no run of two underscores and no underscore at either end |
| AzureResourceTpl.NormaliseKeepsOrder | lib/backends/azure/resource_tpl.rb:63-66 | the normalised name keeps, in order, the characters the replacement left, with one underscore between two of them exactly where the replaced name had any, none at either end, and is empty when nothing is left |
| AzureResourceTpl.SqueezeThenTrimIsWellFormed | lib/backends/azure/resource_tpl.rb:65-66 | squeezing and trimming a string of size-name characters gives a well-formed name |
| AzureResourceTpl.NormaliseEmpty | lib/backends/azure/resource_tpl.rb:63-66 | the normalised name is empty exactly when the name has no letter, digit or hyphen |
| AzureResourceTpl.SqueezeKeepsSqueezed | lib/backends/azure/resource_tpl.rb:65 | squeezing a string without a double underscore changes nothing |
| AzureResourceTpl.NormaliseIdempotent | lib/backends/azure/resource_tpl.rb:63-66 | normalising a normalised name changes nothing |
| AzureResourceTpl.SizeNameToTerm | lib/backends/azure/resource_tpl.rb:62-69 | the term is `uuid_`, then the normalised name, then `__`, then the forty alphanumeric digest characters of the original name |
| AzureResourceTpl.MatchSizeLine | lib/backends/azure/resource_tpl.rb:5 | a matched line captures forty characters that end the line right after `__` |
| AzureResourceTpl.TermToSizeHash | lib/backends/azure/resource_tpl.rb:55-58 | a decoded digest is forty alphanumeric characters |
| AzureResourceTpl.SingleLineTerm | lib/backends/azure/resource_tpl.rb:55-58 | a one-line term decodes exactly as the pattern matches that line, and otherwise to nil |
| AzureResourceTpl.SizeTermRoundTrip | lib/backends/azure/resource_tpl.rb:55-69 | the term of a size name decodes to the digest of that name when the normalised part is non-empty, and to nil when it is empty |
| AzureResourceTpl.SizeTermIsOneLine | lib/backends/azure/resource_tpl.rb:62-69 | a size term holds no line break |
| AzureResourceTpl.FirstWithDigest | lib/backends/azure/resource_tpl.rb:48 | answers the first fixture whose raw term hashes to the digest, and nothing when none does |
| AzureResourceTpl.ResourceTplGet | lib/backends/azure/resource_tpl.rb:44-49 | nil when the term does not decode; otherwise the first fixture whose raw term hashes to the decoded digest, and nil exactly when no fixture's does |
| AzureResourceTpl.ResourceTplList | lib/backends/azure/resource_tpl.rb:15-32 | the listing keeps the fixtures' count and order and rewrites only each term, to the encoded form |
| AzureResourceTpl.ListThenGet | lib/backends/azure/resource_tpl.rb:15-49 | looking up a listed term finds a fixture with the same digest, and that very fixture when no other shares the digest |
| AzureResourceTpl.GetAnswersRawFixture | lib/backends/azure/resource_tpl.rb:34-49 | as written, the lookup of a fixture's listed term answers the fixture with its raw term, which is not the term asked for |
| AzureResourceTpl.ResourceTplGetListed | lib/backends/azure/resource_tpl.rb:34-37 | the corrected lookup answers a listed mixin carrying exactly the given term, and nil exactly when no listed mixin has it |
| AzureResourceTpl.ListThenGetListed | lib/backends/azure/resource_tpl.rb:15-37 | with the corrected lookup, every listed term is found as a mixin carrying that term: the first fixture listed under it, term rewritten |
| Occi.RelatedTo | lib/backends/azure/compute.rb:74 | the related mixins are exactly the mixins that depend on the identifier, in order, the first being the first such mixin |
| Occi.WithTerm | lib/backends/azure/os_tpl.rb:25-27 | answers the first mixin carrying the term, and nothing exactly when none does |
| AzureCompute.DefaultTcpEndpoints | lib/backends/azure/compute.rb:88-92 | a string option becomes its whitespace-separated words: the non-empty fields between whitespace characters, in order, which together spell the string without whitespace; any other option is kept |
| Strings.WordsSpellInput | lib/backends/azure/compute.rb:89 | every word of the split is a non-empty run of non-space characters, and the words together spell the input without its whitespace |
| Strings.WordsAreNonEmptyFields | lib/backends/azure/compute.rb:89 | awk-style `split(' ')` gives exactly the non-empty fields between single whitespace characters, in order: the maximal runs of non-space characters |
| AzureCompute.ChosenResourceTpl | lib/backends/azure/compute.rb:83-84 | the first resource_tpl mixin the instance carries, else the first listed template, else none |
| AzureCompute.CreateRequestFor | lib/backends/azure/compute.rb:70-113 | fails exactly without an os_tpl mixin (`ResourceNotValidError`) or without any resource template; otherwise the vm, cloud service and deployment names are all the SHA-1 of the id, the image is decoded from the first os_tpl term, the size comes from the chosen template, and the options are passed on |
| AzureCompute.ComputeCreate | lib/backends/azure/compute.rb:70-121 | success answers the SHA-1 of the id; no os_tpl gives `ResourceNotValidError`; a VirtualMachine reply succeeds; any other reply gives `ResourceCreationError` with its text; a raised `StandardError` comes back as one of the family, and any other exception passes unchanged |
| AzureCompute.CreateUsesListedImage | lib/backends/azure/compute.rb:74-80 | a create request built for an os_tpl mixin derived from a listed image names exactly that image |
| AzureCompute.ComputeListIds | lib/backends/azure/compute.rb:16-20 | the names of the listed VMs in order, or a family error when listing raises a `StandardError`, and the exception itself otherwise |
| AzureCompute.CallUnimplemented | lib/backends/azure/compute.rb:36-323 | every unimplemented compute operation fails with `MethodNotImplementedError`, an error of the gateway's own family |
| OneStorage.RequestedZones | app/lib/backends/opennebula/storage.rb:105-106 | the availability-zone terms when there are any, else just the default cluster |
| OneStorage.Detect | app/lib/backends/opennebula/storage.rb:109 | the position of the first image datastore whose clusters hold every requested zone, and nothing exactly when none does |
| OneStorage.CandidateDatastore | app/lib/backends/opennebula/storage.rb:104-111 | fails with `EntityStateError` and the spanning message exactly when no datastore qualifies; otherwise the id of the first one that does |
| OneStorage.DetectIgnoresZoneOrder | app/lib/backends/opennebula/storage.rb:108-109 | the choice depends only on which zones are requested, not on their order or repetition |
| OneStorage.CandidateIgnoresZoneOrder | app/lib/backends/opennebula/storage.rb:104-111 | two requests naming the same zones get the same datastore or the same error |
| OneStorage.EnableActions | app/lib/backends/opennebula/storage.rb:98-101 | an online storage gains every online action; any other storage is unchanged; id and attributes never change and only online actions are added |
| OneStorage.EnableActionsIdempotent | app/lib/backends/opennebula/storage.rb:98-101 | enabling the actions twice is the same as once |
| OneStorage.Identifiers | app/lib/backends/opennebula/storage.rb:24-26 | the set holds exactly the pool's image ids and is no larger than the pool |
| OneStorage.Create | app/lib/backends/opennebula/storage.rb:43-52 | no datastore gives the spanning error; success exactly when a datastore is found and allocation and reading back succeed, answering the allocated id; `EntityCreateError` with the call's message exactly when allocation fails, and `EntityStateError` with its message when reading back fails |
| StorageController.Index | app/controllers/storage_controller.rb:4-14 | 200; a uri-list holds one `<server_url>/storage/<id>` per listed id in order; other formats answer the listed storages |
| StorageController.IndexUrisGiveBackIds | app/controllers/storage_controller.rb:6-7 | cutting the storage prefix off each listed uri gives back the listed id |
| StorageController.Found | app/controllers/storage_controller.rb:18-25 | 200 with the storage exactly when one was found, else 404 with an empty collection |
| StorageController.Show | app/controllers/storage_controller.rb:17-26 | 404 with an empty body exactly when the backend finds nothing, else 200 with the found storage |
| StorageController.FirstResource | app/controllers/storage_controller.rb:30 | the first requested storage, nothing for an empty request |
| StorageController.Create | app/controllers/storage_controller.rb:29-34 | 201 with a single link under `<server_url>/storage/` whose suffix is the id the backend created |
| StorageController.Trigger | app/controllers/storage_controller.rb:38-42 | always 501 with an empty collection |
| StorageController.ForcedInstance | app/controllers/storage_controller.rb:47-48 | the first requested storage with the id taken from the path, nothing for an empty request |
| StorageController.Update | app/controllers/storage_controller.rb:46-63 | 304 exactly when the backend update answers false; 404 exactly when it answers true and the storage is then not found; otherwise 200 with the fetched storage |
| StorageController.Delete | app/controllers/storage_controller.rb:67-79 | with an id deletes that one, without deletes all; 200 exactly when the backend answers true, else 304; the body is always empty |
| Server.Uri | lib/occi/server.rb:92-102 | the location without one trailing `/`, followed by `:<port>` when a port is configured |
| Server.UriIgnoresTrailingSlash | lib/occi/server.rb:92-94 | a location with or without a trailing `/` gives the same uri |
| Server.GetByLocation | lib/occi/server.rb:243 | the first kind registered at exactly that location, and nothing when none is |
| Server.NewCollection | lib/occi/server.rb:198 | the collection starts with exactly the five entries, all empty |
| Server.Prune | lib/occi/server.rb:214 | exactly the non-empty entries are kept, unchanged |
| Server.PruneIdempotent | lib/occi/server.rb:214 | pruning twice is pruning once |
| Server.PruneNewCollection | lib/occi/server.rb:198-214 | a request that fills nothing renders an empty collection |
| Server.After | lib/occi/server.rb:211-226 | the rendered response keeps status and uri-list and holds exactly the non-empty entries |
| Server.Locations | lib/occi/server.rb:250 | one uri per entity, the server uri followed by the entity's location |
| Server.ListedSnoc | lib/occi/server.rb:246-251 | listing one more kind adds exactly that kind's entities of the type |
| Server.ListKinds | lib/occi/server.rb:246-251 | the listed resources and links are the entities of resource and link kinds, concatenated in kind order with repeats kept; the uri-list holds the uri of every entity of every kind, in kind order, whatever the kind's entity type |
| Server.OneEntryRendered | lib/occi/server.rb:198-214 | a request that filled one entry renders only that entry, holding exactly the given entities |
| Server.ListedKinds | lib/occi/server.rb:240-244 | `/` lists every kind; another path lists the kind registered there, or nothing |
| Server.ListCollection | lib/occi/server.rb:239-251 | a collection path with no kind registered dereferences nil; otherwise the answer is 200 |
| Server.ListCollectionContents | lib/occi/server.rb:239-251 | a listed collection holds the listed kinds' resources and links apart, each entry in kind order with repeats kept and present exactly when non-empty; its uri-list is the uri of every entity of the listed kinds, in order, each under the server uri |
| Server.WithId | lib/occi/server.rb:257 | exactly the entities with the id, and never more entities than given |
| Server.WithIdAppend | lib/occi/server.rb:257 | selecting from two runs of entities selects from each in turn, so order and repeats are kept |
| Server.WithIdOne | lib/occi/server.rb:257 | one entity is selected exactly when it has the id |
| Server.SplitInstancePath | lib/occi/server.rb:253-254 | the id holds no `/`, the kind location ends in `/`, and the two give back the path when it has a `/` |
| Server.InstancePathParts | lib/occi/server.rb:253-254 | for a path with a `/` that does not end in one, the id is its non-empty last segment |
| Server.ShowInstance | lib/occi/server.rb:252-258 | 404 exactly when no kind is registered at the path's kind location, otherwise 200 with no uri-list |
| Server.ShowInstanceContents | lib/occi/server.rb:252-258 | a shown instance is every entity of the kind with the path's id, filed under resources for a resource kind and under links for a link kind; a kind of any other entity type renders an empty collection |
| Server.Get | lib/occi/server.rb:238-261 | on a path ending in `/` the only failure is a nil dereference, and `/` always succeeds; on any other path the request halts with 404 exactly for an unknown kind location, and succeeds with no uri-list otherwise; success answers 200 |
| Server.ResolveAction | lib/occi/server.rb:290 | the first action identifier whose part after the last `#` is the term, and nothing when none is |
| Server.ResolveActionFindsIdentifier | lib/occi/server.rb:290 | an action `scheme#term` is found by its term unless an earlier action ends in the same term |
| Server.FirstWithId | lib/occi/server.rb:298 | an entity of the kind with the id, nothing exactly when there is none |
| Server.PostAsWritten | lib/occi/server.rb:275-320 | as written, a POST without an action to an unknown location ends with 400 |
| Server.PostToUnknownLocationAnswers400 | lib/occi/server.rb:279-317 | a POST to `/nothing/` with no kind registered answers 400 |
| Server.Post | lib/occi/server.rb:275-320 | an unknown location answers 404 without an action and dereferences nil with one; 404 is answered exactly then; every other answer is 200 or 201 |
| Server.PostDiffersOnlyOnUnknownLocation | lib/occi/server.rb:279-317 | the corrected POST agrees with the written one except at an unknown location without an action, where 400 becomes 404 |
| Server.PostAction | lib/occi/server.rb:285-291 | the first action of the request body when there is one; otherwise the first action identifier of the kind whose part after the last `#` is the `action` term, and nil exactly when none is |
| Server.PostActionDelegation | lib/occi/server.rb:285-301 | with an action, a collection path runs the resolved action on every entity of the kind in order, and an instance path runs it once on the entity with the path's id; the answer is 200 |
| Server.PostCreatesResources | lib/occi/server.rb:302-308 | without an action, a POST to a kind deploys each requested resource and lists its uri; 201 exactly when there was one |
| Server.Put | lib/occi/server.rb:325-327 | every PUT answers 501 with an empty collection |
| Strings.LastField | lib/backends/ec2/helpers/compute_network_helper.rb:7 | `split(sep).last` is the last non-empty field, and nil exactly when the string is all separators |
| Strings.LastFieldAfterSeparator | lib/backends/ec2/helpers/compute_network_helper.rb:7 | the non-empty field after the last separator is what the split answers |
| Strings.RPartition | lib/occi/server.rb:253-254 | the split is at the last occurrence of the character; without one the whole string is the after-part |
| Strings.ChompChar | lib/occi/server.rb:93 | `chomp('/')` drops exactly one trailing `/` |
| Strings.Chomp | lib/occi/backend/opennebula/opennebula.rb:166 | `chomp` drops one trailing `\r\n`, `\n` or `\r`, and nothing otherwise |
| Strings.Downcase | lib/occi/backend/opennebula/opennebula.rb:166 | `downcase` lower-cases position by position and keeps the length |
| Ec2Network.ComputeId | lib/backends/ec2/helpers/compute_network_helper.rb:7 | the compute id is a non-empty segment without `/`, and nil exactly when the source is all `/` |
| Ec2Network.ComputeIdOfLocation | lib/backends/ec2/helpers/compute_network_helper.rb:7 | the id of `<prefix>/<id>` is `<id>` |
| Ec2Network.IsVpc | lib/backends/ec2/helpers/compute_network_helper.rb:13 | the instance is in a VPC exactly when some link target's last segment contains `vpc-`; a target without a last segment raises `NoMethodError` |
| Ec2Network.LinkIdNamesInstance | lib/backends/ec2/helpers/compute_network_helper.rb:40 | the returned link id is `compute_<id>_nic_eni-0`, and the id can be read back from it |
| Ec2Network.AttachDomain | lib/backends/ec2/helpers/compute_network_helper.rb:13-23 | the address is allocated in `vpc` exactly for a VPC instance, once the instance and its links were read |
| Ec2Network.AttachPublic | lib/backends/ec2/helpers/compute_network_helper.rb:6-41 | a lookup error is passed on; an instance with an elastic address is refused with `ResourceCreationError` and the account untouched; success answers the link id and associates the new address with the instance; a failed association releases the address and fails with its message, unless the release fails, which raises its own error and leaves the address allocated |
| Ec2Network.FailedAttachReleasesAddress | lib/backends/ec2/helpers/compute_network_helper.rb:25-37 | when the allocated address is new, a failed attach leaves the account as it was, or, when the release failed too, holds exactly that one extra unassociated address |
| Ec2Network.AttachTwiceIsRefused | lib/backends/ec2/helpers/compute_network_helper.rb:10-11 | after a successful attach, a second attach of the same instance is refused with `ResourceCreationError` and changes nothing |
| Ec2Network.Disassociated | lib/backends/ec2/helpers/compute_network_helper.rb:59 | disassociating keeps every address and leaves the given one with no instance |
| Ec2Network.DetachPublic | lib/backends/ec2/helpers/compute_network_helper.rb:53-66 | a blank address (nil, or only Unicode whitespace) is refused with the account untouched; success removes the address; an `AuthFailure` of either call becomes `UserNotAuthorizedError`; after a successful disassociation, the detach succeeds exactly when the release does |
| Ec2Network.BlankDetachCallsNothing | lib/backends/ec2/helpers/compute_network_helper.rb:54-55 | a blank address is refused whatever EC2 would answer |
| Ec2Network.UnicodeBlankDetachRefused | lib/backends/ec2/helpers/compute_network_helper.rb:54-55 | an address of a no-break and an ideographic space is blank and refused before EC2 is called, exactly as the empty address is |
| Ec2Network.ChangeUnsupported | lib/backends/ec2/helpers/compute_network_helper.rb:43-75 | attaching or detaching a private or VPC network always fails with `ResourceCreationError` and leaves the account |

## Left out

- Provider and library calls are parameters: Azure services, EC2 client calls, OpenNebula pools, images and datastores, SHA-1 and the name-based UUID. Their failures are modelled only as far as the helpers handle them.
- Logging, Rack authentication, backend construction, the per-request model reset, content negotiation and rendering (`respond_to`, ERB templates, JSON/XML) are left out. The storage template is an opaque string.
- `SecureRandom` user names and passwords in `compute_create` are left out, because they are nondeterministic. So are the option fields that are always nil or constant.
- AzureCompute.CreateRequestFor: `ssh_port.to_i` is modelled as an integer option, not as Ruby's string-to-integer conversion.
- AzureCompute.CreateRequestFor: `resource_tpl_list_term_to_size_name` is defined in no modelled file. It is the parameter `sizeNameOf`.
- AzureOsTpl and AzureResourceTpl: `downcase`, `[[:alnum:]]` and `\w` are modelled for ASCII only. Unicode case mappings are left out. The `[[:space:]]` of `blank?` is modelled with Unicode whitespace (`Strings.IsUnicodeSpace`).
- OneDispatch.GenerateOcciIdProperties: the UUID is a parameter, so distinct seeds are shown to hash distinct names, not to give distinct ids.
- OneDispatch: Ruby symbols (`:deploy`, `:compute_deploy`) are modelled as strings.
- ComputeKind.Fire: the StateMachine class is not part of this model. Firing an action without an edge is modelled as a refusal that keeps the state, without naming the error the class raises.
- Occi.RelatedTo: `get_related_to` is not part of this model. It is read as the mixins that depend on the identifier directly, in their order; dependence through a chain of mixins is not modelled.
- ComputeKind: the kind's `related`, `entity_type`, `entities` and `title` are not modelled. Nor are `deploy`/`delete`, which only call the backend.
- Server.GetByLocation: `OCCI::Model.get_by_location` is not part of this model. It is taken to be an exact match over the registered kinds.
- Server.PostAction: `OCCI::Model.get_by_id` is not modelled; the action is its identifier, and nil when no identifier matches.
- Server.Post: a category that is a mixin, and the mixin-attachment branch (lib/occi/server.rb:309-315), are left out; every registered category is treated as a kind. The first request action's `method` parameter is also left out.
- Server: the discovery endpoints, DELETE, and the commented-out PUT/DELETE code are left out.
- Ec2Network: `AwsConnectHelper.rescue_aws_service` is not part of this model. Errors raised inside it are passed on unchanged.
- Ec2Network: `describe_addresses` is modelled by the account's address map, and a failure of that call is not modelled.
- Ec2Network.AttachPublic: a nil compute id is handed to the instance lookup as nil. The link id then interpolates it as the empty string.
- Ec2Network.Inspect: escaping inside `inspect` is not modelled.
- OneStorage: `attach_mixins!`, `transfer_attributes!` and the rest of `storage_from` are left out, as are `list`, `instance` and `delete`. These only copy backend data.
- OneStorage.CandidateDatastore: `azs.sort!` is not modelled as a sort. Instead, `CandidateIgnoresZoneOrder` proves the choice does not depend on zone order.
- OneStorage.Identifiers: Ruby `Set` is modelled as a Dafny set of the ids.
- OneStorage.Create: `allocate` is modelled as answering the new image id, which the source reads back as `image['ID']` after `info`.
- StorageController.Show: appending a nil storage to a collection is taken to leave the collection empty.

## Findings

| source | as written | input that shows it | evidently intended | confidence | as-written member | corrected member |
|---|---|---|---|---|---|---|
| lib/backends/azure/resource_tpl.rb:34-49 | `resource_tpl_get` answers the raw fixture, whose term is the size name, although its documentation says the returned mixin carries the given term | the term `resource_tpl_list` published for a fixture named `A1` | the listed mixin whose term is the given term | not executed | AzureResourceTpl.ResourceTplGet, AzureResourceTpl.GetAnswersRawFixture | AzureResourceTpl.ResourceTplGetListed, AzureResourceTpl.ListThenGetListed |
| lib/backends/azure/os_tpl.rb:25-42 | `os_tpl_get` answers the Azure image, not a mixin, although its documentation says the returned mixin carries the given term | the term `uuid_ubuntu` of a listed image named `ubuntu` | the listed os_tpl mixin whose term is the given term | not executed | AzureOsTpl.OsTplGet, AzureOsTpl.GetAnswersImage | AzureOsTpl.OsTplGetListed, AzureOsTpl.ListThenGetListed |
| lib/occi/server.rb:279-317 | `status 404` for a missing category does not stop the handler; without an `action` the `if`/`elsif` chain reaches the final `else`, which sets 400 | POST `/nothing/` without an `action` parameter, with no kind registered at `/nothing/` | 404, the status set for an unknown category | not executed | Server.PostAsWritten, Server.PostToUnknownLocationAnswers400 | Server.Post, Server.PostDiffersOnlyOnUnknownLocation |

=== FILE: azure_compute.dfy ===
/** The pure steps of the Azure compute backend: listing VM names, the
    validation and selection steps of `compute_create`, and the operations
    that are not implemented. */
module AzureCompute {
  import opened Wrappers
  import opened Strings
  import opened Errors
  import opened Occi
  import opened AzureConnect
  import AzureOsTpl
  import AzureResourceTpl

  /** The `tcp_endpoints` option: a space-separated string or any other value. */
  datatype TcpEndpoints = EndpointString(text: string) | EndpointList(items: seq<string>) | NoEndpoints

  /** A string is split awk-style on whitespace; anything else is used as is. */
  function DefaultTcpEndpoints(option: TcpEndpoints): (r: TcpEndpoints)
    ensures !option.EndpointString? ==> r == option
    ensures option.EndpointString? ==>
      r.EndpointList? &&
      (forall w :: w in r.items ==> |w| > 0 && forall i :: 0 <= i < |w| ==> !IsSpace(w[i])) &&
      Concat(r.items) == DropSpaces(option.text)
    ensures option.EndpointString? ==> r.items == NonEmpty(Fields(option.text))
  {
    match option
    case EndpointString(text) => WordsSpellInput(text); WordsAreNonEmptyFields(text); EndpointList(Words(text))
    case _ => option
  }

  datatype Options = Options(location: string, tcpEndpoints: TcpEndpoints, sshPort: int)

  /** A compute instance as the create call sees it. */
  datatype Compute = Compute(id: string, mixins: seq<Mixin>)

  /** The parameters handed to the provider's `create_virtual_machine`,
      without the random user name and password. */
  datatype CreateRequest = CreateRequest(
    vmName: string,
    image: Option<string>,
    location: string,
    cloudServiceName: string,
    deploymentName: string,
    tcpEndpoints: TcpEndpoints,
    sshPort: int,
    vmSize: Option<string>)

  /** What `create_virtual_machine` returns. */
  datatype ProviderReply = VirtualMachine(name: string) | OtherReply(text: string)

  const NoOsTplMessage := "Given instance does not contain an os_tpl mixin necessary to create a virtual machine!"
  const NilTermMessage := "undefined method `term' for nil:NilClass"

  /** The resource_tpl mixin the VM size is read from: the first one the
      instance carries, else the first listed one, else none. */
  function ChosenResourceTpl(sha1: string -> HexDigest, fixtures: seq<Mixin>, mixins: seq<Mixin>): (r: Option<Mixin>)
    ensures RelatedTo(mixins, ResourceTplMixinId) != [] ==>
      r.Some? && exists i :: IsFirstRelated(mixins, ResourceTplMixinId, i) && mixins[i] == r.value
    ensures RelatedTo(mixins, ResourceTplMixinId) == [] ==>
      r == if |fixtures| == 0 then None else Some(AzureResourceTpl.ResourceTplList(sha1, fixtures)[0])
  {
    var given := RelatedTo(mixins, ResourceTplMixinId);
    if |given| > 0 then Some(given[0])
    else
      var listed := AzureResourceTpl.ResourceTplList(sha1, fixtures);
      if |listed| == 0 then None else Some(listed[0])
  }

  /** The validation and selection steps of `compute_create`, up to the
      provider call.  `sizeNameOf` stands for the term-to-size-name lookup
      the create call relies on. */
  function CreateRequestFor(
    sha1: string -> HexDigest, sizeNameOf: string -> Option<string>,
    fixtures: seq<Mixin>, options: Options, compute: Compute): (r: Result<CreateRequest, Raised>)
    ensures r.Err? <==>
      RelatedTo(compute.mixins, OsTplMixinId) == [] || ChosenResourceTpl(sha1, fixtures, compute.mixins).None?
    ensures RelatedTo(compute.mixins, OsTplMixinId) == [] ==>
      r == Err(Backend(ResourceNotValidError, NoOsTplMessage))
    ensures r.Ok? ==>
      var q := r.value;
      q.vmName == sha1(compute.id) && q.cloudServiceName == q.vmName && q.deploymentName == q.vmName &&
      (exists i :: IsFirstRelated(compute.mixins, OsTplMixinId, i) &&
        q.image == AzureOsTpl.TermToImageName(compute.mixins[i].term)) &&
      q.vmSize == sizeNameOf(ChosenResourceTpl(sha1, fixtures, compute.mixins).value.term) &&
      q.location == options.location && q.sshPort == options.sshPort &&
      q.tcpEndpoints == DefaultTcpEndpoints(options.tcpEndpoints)
  {
    var vmName := sha1(compute.id);
    var osTpls := RelatedTo(compute.mixins, OsTplMixinId);
    if |osTpls| == 0 then Err(Backend(ResourceNotValidError, NoOsTplMessage))
    else
      var image := AzureOsTpl.TermToImageName(osTpls[0].term);
      match ChosenResourceTpl(sha1, fixtures, compute.mixins)
      case None => Err(Foreign("NoMethodError", NilTermMessage, true))
      case Some(tpl) =>
        Ok(CreateRequest(
          vmName, image, options.location, vmName, vmName,
          DefaultTcpEndpoints(options.tcpEndpoints), options.sshPort, sizeNameOf(tpl.term)))
  }

  /** The image a create request asks for is the image whose listed os_tpl
      mixin the instance carries first, as long as that image has a
      non-empty one-line name. */
  lemma CreateUsesListedImage(
    sha1: string -> HexDigest, sizeNameOf: string -> Option<string>,
    fixtures: seq<Mixin>, options: Options, compute: Compute,
    backendScheme: string, image: AzureOsTpl.Image, i: int)
    requires IsFirstRelated(compute.mixins, OsTplMixinId, i)
    requires compute.mixins[i] == AzureOsTpl.MixinFromImage(backendScheme, image)
    requires image.name.Some? && |image.name.value| > 0 && NoChar(image.name.value, '\n')
    requires CreateRequestFor(sha1, sizeNameOf, fixtures, options, compute).Ok?
    ensures CreateRequestFor(sha1, sizeNameOf, fixtures, options, compute).value.image == image.name
  {
    var q := CreateRequestFor(sha1, sizeNameOf, fixtures, options, compute).value;
    var j :| IsFirstRelated(compute.mixins, OsTplMixinId, j) &&
      q.image == AzureOsTpl.TermToImageName(compute.mixins[j].term);
    assert j == i;
    AzureOsTpl.ImageTermRoundTrip(image.name.value);
  }

  /** The block passed to the service wrapper: a reply that is not a
      virtual machine raises `ResourceCreationError`. */
  function CreateBlock(reply: Block<ProviderReply>): Block<ProviderReply> {
    match reply
    case Returns(OtherReply(text)) => Raises(Backend(ResourceCreationError, text))
    case _ => reply
  }

  /** `compute_create`: the new instance's id is the generated VM name, the
      SHA-1 of the requested id; `provider` is `create_virtual_machine`. */
  function ComputeCreate(
    sha1: string -> HexDigest, sizeNameOf: string -> Option<string>,
    fixtures: seq<Mixin>, options: Options, compute: Compute,
    provider: CreateRequest -> Block<ProviderReply>): (r: Result<string, Raised>)
    ensures r.Ok? ==> r.value == sha1(compute.id)
    ensures RelatedTo(compute.mixins, OsTplMixinId) == [] ==>
      r == Err(Backend(ResourceNotValidError, NoOsTplMessage))
    ensures CreateRequestFor(sha1, sizeNameOf, fixtures, options, compute).Ok? ==>
      var reply := provider(CreateRequestFor(sha1, sizeNameOf, fixtures, options, compute).value);
      (reply.Returns? && reply.value.VirtualMachine? ==> r == Ok(sha1(compute.id))) &&
      (reply.Returns? && reply.value.OtherReply? ==> r == Err(Backend(ResourceCreationError, reply.value.text))) &&
      (reply.Raises? ==> r.Err? && if reply.error.IsStandard() then r.error.IsOwn() else r.error == reply.error)
  {
    match CreateRequestFor(sha1, sizeNameOf, fixtures, options, compute)
    case Err(e) => Err(e)
    case Ok(request) =>
      match RescueAzureService(Some(CreateBlock(provider(request))))
      case Err(e) => Err(e)
      case Ok(_) => Ok(request.vmName)
  }

  /** A VM as `list_virtual_machines` reports it. */
  datatype VmRecord = VmRecord(vmName: string, status: string)

  /** `compute_list_ids`: the names of the listed VMs, in order. */
  function ComputeListIds(listing: Block<seq<VmRecord>>): (r: Result<seq<string>, Raised>)
    ensures listing.Returns? ==>
      r.Ok? && |r.value| == |listing.value| &&
      forall i :: 0 <= i < |r.value| ==> r.value[i] == listing.value[i].vmName
    ensures listing.Raises? ==>
      r.Err? && if listing.error.IsStandard() then r.error.IsOwn() else r.error == listing.error
  {
    var block := match listing
      case Returns(vms) => Returns(seq(|vms|, i requires 0 <= i < |vms| => vms[i].vmName))
      case Raises(e) => Raises(e);
    RescueAzureService(Some(block))
  }

  /** The compute operations the Azure backend leaves unimplemented. */
  datatype UnimplementedOperation =
    | List | Get | DeleteAll | Delete | PartialUpdate | Update
    | AttachNetwork | AttachStorage | DetachNetwork | DetachStorage
    | GetNetwork | GetStorage | TriggerActionOnAll | TriggerAction

  const NotImplementedMessage := "Feature currently not implemented!"

  /** Every unimplemented operation fails, whatever its arguments, with
      `MethodNotImplementedError`. */
  function CallUnimplemented<T>(op: UnimplementedOperation): (r: Result<T, Raised>)
    ensures r.Err? && r.error.Backend? && r.error.kind == MethodNotImplementedError
    ensures r.Err? && r.error.IsOwn()
  {
    OwnKindsAreOwn(MethodNotImplementedError, NotImplementedMessage);
    Err(Backend(MethodNotImplementedError, NotImplementedMessage))
  }
}

=== FILE: azure_connect.dfy ===
/** The Azure service wrapper: runs a provider call and translates whatever
    it raises into the gateway's own error family. */
module AzureConnect {
  import opened Wrappers
  import opened Strings
  import opened Errors

  /** What the wrapped block did: returned a value or raised. */
  datatype Block<+T> = Returns(value: T) | Raises(error: Raised)

  /** The HTTP status codes each error kind is chosen for; `ResourceActionError`
      is the fallback for every code listed nowhere. */
  function CodesOf(k: ErrorKind): set<int> {
    match k
    case ServiceUnavailableError => {503, 504}
    case AuthenticationError => {401}
    case UserNotAuthorizedError => {403}
    case ResourceStateError => {405, 406}
    case ResourceCreationError => {400}
    case ResourceNotFoundError => {404}
    case IdentifierNotValidError => {409}
    case _ => {}
  }

  const MappedCodes: set<int> := {503, 504, 401, 403, 405, 406, 400, 404, 409}

  /** Converts an Azure HTTP error into exactly one error of the family; the
      message is the error's type and description. */
  function HandleServiceError(status: int, errorType: string, description: string): (r: Raised)
    ensures r.Backend? && r.message == errorType + ": " + description
    ensures r.kind != ResourceActionError ==> status in CodesOf(r.kind)
    ensures r.kind == ResourceActionError <==> status !in MappedCodes
    ensures forall k :: status in CodesOf(k) ==> r.kind == k
  {
    var message := errorType + ": " + description;
    var kind :=
      if status == 503 || status == 504 then ServiceUnavailableError
      else if status == 401 then AuthenticationError
      else if status == 403 then UserNotAuthorizedError
      else if status == 405 || status == 406 then ResourceStateError
      else if status == 400 then ResourceCreationError
      else if status == 404 then ResourceNotFoundError
      else if status == 409 then IdentifierNotValidError
      else ResourceActionError;
    Backend(kind, message)
  }

  /** The code sets are pairwise disjoint, so the classification above is a
      function of the status code alone. */
  lemma CodeSetsDisjoint(k1: ErrorKind, k2: ErrorKind)
    requires k1 != k2
    ensures CodesOf(k1) !! CodesOf(k2)
  {
  }

  lemma OwnKindsAreOwn(k: ErrorKind, m: string)
    ensures Backend(k, m).IsOwn()
  {
    assert (Namespace + KindName(k))[..|Namespace|] == Namespace;
  }

  const NoBlockMessage := "Azure service-wrapper was called without a block!"

  /** `rescue_azure_service`: `None` is a call without a block.  An
      exception that is not a `StandardError` escapes the bare `rescue` and
      reaches the caller unchanged. */
  function RescueAzureService<T>(block: Option<Block<T>>): (r: Result<T, Raised>)
    ensures block.None? ==> r == Err(Backend(StubError, NoBlockMessage))
    ensures block.Some? && block.value.Returns? ==> r == Ok(block.value.value)
    ensures block.Some? && block.value.Raises? && block.value.error.HttpError? ==>
      var e := block.value.error;
      r == Err(HandleServiceError(e.status, e.errorType, e.description))
    ensures block.Some? && block.value.Raises? && !block.value.error.HttpError? ==>
      var e := block.value.error;
      r == if e.IsOwn() || !e.IsStandard() then Err(e) else Err(Backend(ResourceActionError, e.Message()))
    ensures r.Err? ==> r.error.IsOwn() || (block.Some? && block.value == Raises(r.error) && !r.error.IsStandard())
  {
    match block
    case None => OwnKindsAreOwn(StubError, NoBlockMessage); Err(Backend(StubError, NoBlockMessage))
    case Some(Returns(v)) => Ok(v)
    case Some(Raises(e)) =>
      if e.HttpError? then
        var h := HandleServiceError(e.status, e.errorType, e.description);
        OwnKindsAreOwn(h.kind, h.message);
        Err(h)
      else if !e.IsStandard() || e.IsOwn() then Err(e)
      else
        OwnKindsAreOwn(ResourceActionError, e.Message());
        Err(Backend(ResourceActionError, e.Message()))
  }
}

=== FILE: azure_os_tpl.dfy ===
/** The Azure os_tpl codec: an image name becomes the mixin term
    `uuid_<name>`, and a term is decoded with the anchored pattern
    `^uuid_(.+)$`, whose anchors Ruby reads as LINE anchors. */
module AzureOsTpl {
  import opened Wrappers
  import opened Strings
  import opened Occi
  import opened Errors

  const TermPrefix := "uuid_"

  /** An Azure VM image; the name may be missing. */
  datatype Image = Image(name: Option<string>, os: string)

  /** `os_tpl_list_image_to_term`: a missing name interpolates as "". */
  function ImageToTerm(name: Option<string>): (r: string)
    ensures StartsWith(r, TermPrefix) && r[|TermPrefix|..] == name.GetOr("")
  {
    TermPrefix + name.GetOr("")
  }

  /** The pattern tried on one line: the prefix and at least one more
      character, all of which is captured. */
  function MatchImageLine(line: string): Option<string> {
    if |line| > |TermPrefix| && StartsWith(line, TermPrefix) then Some(line[|TermPrefix|..]) else None
  }

  /** `os_tpl_list_term_to_image_name`: the capture from the first line of
      the term that matches, or `nil`.  A decoded name is a non-empty line
      that occurs in the term right after the prefix. */
  function TermToImageName(term: string): (r: Option<string>)
    ensures r.Some? ==> |r.value| > 0 && NoChar(r.value, '\n') && Contains(term, TermPrefix + r.value)
    decreases |term|
  {
    var n := LineLength(term);
    var line := term[..n];
    match MatchImageLine(line)
    case Some(name) =>
      assert line == TermPrefix + name;
      assert OccursAt(term, TermPrefix + name, 0);
      Some(name)
    case None =>
      if n == |term| then None
      else
        assert term[n] == '\n';
        var r := TermToImageName(term[n + 1..]);
        if r.Some? then
          ContainsInSuffix(term, n + 1, TermPrefix + r.value);
          r
        else r
  }

  /** A term without line breaks decodes exactly when it is the prefix
      followed by something, to that something. */
  lemma SingleLineTerm(term: string)
    requires NoChar(term, '\n')
    ensures TermToImageName(term) ==
      if |term| > |TermPrefix| && StartsWith(term, TermPrefix) then Some(term[|TermPrefix|..]) else None
  {
    var n := LineLength(term);
    assert n == |term|;
    assert term[..n] == term;
  }

  /** Round trip: a non-empty name without a line break is recovered from
      its term. */
  lemma ImageTermRoundTrip(name: string)
    requires |name| > 0 && NoChar(name, '\n')
    ensures TermToImageName(ImageToTerm(Some(name))) == Some(name)
  {
    var t := ImageToTerm(Some(name));
    assert t[|TermPrefix|..] == name;
    assert NoChar(t, '\n');
    SingleLineTerm(t);
  }

  /** The round trip fails for the two inputs it excludes.  A missing name
      gives a term that does not decode ... */
  lemma NilImageTermDecodesToNil()
    ensures TermToImageName(ImageToTerm(None)) == None
  {
    assert NoChar(ImageToTerm(None), '\n');
    SingleLineTerm(ImageToTerm(None));
  }

  /** ... a name with a line break whose first line is not empty decodes
      to that first line ... */
  lemma ImageTermRoundTripLimits(first: string, rest: string)
    requires |first| > 0 && NoChar(first, '\n')
    ensures TermToImageName(ImageToTerm(Some(first + "\n" + rest))) == Some(first)
  {
    var t := ImageToTerm(Some(first + "\n" + rest));
    var m := |TermPrefix| + |first|;
    assert t == TermPrefix + first + "\n" + rest;
    assert t[..m] == TermPrefix + first;
    assert t[m] == '\n';
    LineLengthAt(t, m);
    assert MatchImageLine(t[..m]) == Some(first);
  }

  /** ... and a name whose first line is empty decodes, when a later line
      reads as a term, to what follows that line's prefix. */
  lemma EmptyFirstLineDecodesLater()
    ensures TermToImageName(ImageToTerm(Some("\nuuid_x"))) == Some("x")
  {
    var t := ImageToTerm(Some("\nuuid_x"));
    assert t == "uuid_\nuuid_x";
    LineLengthAt(t, 5);
    assert MatchImageLine(t[..5]) == None;
    var later := t[6..];
    assert later == "uuid_x";
    SingleLineTerm(later);
  }

  /** A listing entry that is an image named `name`. */
  predicate Names(entry: Option<Image>, name: string) {
    entry.Some? && entry.value.name == Some(name)
  }

  predicate IsFirstNamed(images: seq<Option<Image>>, name: string, i: int) {
    0 <= i < |images| && Names(images[i], name) &&
    forall j :: 0 <= j < i ==> !Names(images[j], name)
  }

  /** The first listed image named `name`. */
  function FirstNamed(images: seq<Option<Image>>, name: string): (r: Option<Image>)
    ensures r.Some? ==> Some(r.value) in images && r.value.name == Some(name)
    ensures r.None? ==> forall i :: 0 <= i < |images| ==> !Names(images[i], name)
    ensures r.Some? ==> exists i :: IsFirstNamed(images, name, i) && images[i] == Some(r.value)
  {
    if |images| == 0 then None
    else if Names(images[0], name) then
      assert IsFirstNamed(images, name, 0);
      images[0]
    else
      var r := FirstNamed(images[1..], name);
      if r.Some? then
        var i :| IsFirstNamed(images[1..], name, i) && images[1..][i] == Some(r.value);
        assert IsFirstNamed(images, name, i + 1);
        r
      else r
  }

  /** The message of the `NoMethodError` raised when the name of a `nil`
      listing entry is asked for. */
  const NilNameMessage := "undefined method `name' for nil:NilClass"

  /** `os_tpl_get`: the first listed image whose name is the decoded term;
      `nil` when the term does not decode.  As in the source, the image
      itself is returned, not a mixin.  The name of every entry is compared,
      so a `nil` entry in the listing raises `NoMethodError`. */
  function OsTplGet(images: seq<Option<Image>>, term: string): (r: Result<Option<Image>, Raised>)
    ensures TermToImageName(term).None? ==> r == Ok(None)
    ensures TermToImageName(term).Some? ==> (r.Err? <==> None in images)
    ensures r.Err? ==> r.error == Foreign("NoMethodError", NilNameMessage, true)
    ensures r.Ok? && r.value.Some? ==>
      exists i :: IsFirstNamed(images, TermToImageName(term).value, i) && images[i] == r.value
    ensures TermToImageName(term).Some? && r == Ok(None) ==>
      forall i :: 0 <= i < |images| ==> !Names(images[i], TermToImageName(term).value)
  {
    match TermToImageName(term)
    case None => Ok(None)
    case Some(name) =>
      if None in images then Err(Foreign("NoMethodError", NilNameMessage, true))
      else Ok(FirstNamed(images, name))
  }

  /** The mixin built for one image. */
  function MixinFromImage(backendScheme: string, image: Image): (m: Mixin)
    ensures m.term == ImageToTerm(image.name)
    ensures m.location == "/mixin/os_tpl/" + m.term + "/"
    ensures m.depends == [OsTplMixinId] && m.applies == [ComputeKindId]
    ensures m.title == if image.name.Some? then image.name.value else "unknown"
    ensures m.scheme == backendScheme + "/occi/infrastructure/os_tpl#"
  {
    var term := ImageToTerm(image.name);
    Mixin(
      backendScheme + "/occi/infrastructure/os_tpl#",
      term,
      image.name.GetOr("unknown"),
      [],
      [OsTplMixinId],
      [],
      "/mixin/os_tpl/" + term + "/",
      [ComputeKindId])
  }

  /** The images of a listing that may hold `nil` entries, in order. */
  function Present(images: seq<Option<Image>>): (r: seq<Image>)
    ensures |r| <= |images|
    ensures forall img :: img in r <==> Some(img) in images
  {
    if |images| == 0 then []
    else
      var rest := Present(images[1..]);
      var head := if images[0].Some? then [images[0].value] else [];
      assert forall x :: Some(x) in images <==> x in head || Some(x) in images[1..];
      head + rest
  }

  /** `os_tpl_list`: one mixin per listed image, in listing order, skipping
      `nil` entries. */
  function {:induction false} OsTplList(backendScheme: string, images: seq<Option<Image>>): (r: seq<Mixin>)
    ensures |r| == |Present(images)|
    ensures forall i :: 0 <= i < |r| ==> r[i] == MixinFromImage(backendScheme, Present(images)[i])
  {
    if |images| == 0 then []
    else
      var rest := OsTplList(backendScheme, images[1..]);
      assert Present(images) == (if images[0].Some? then [images[0].value] else []) + Present(images[1..]);
      match images[0]
      case None => rest
      case Some(img) => [MixinFromImage(backendScheme, img)] + rest
  }

  /** Every listed image has its mixin in the list, and every mixin of the
      list comes from a listed image. */
  lemma OsTplListCovers(backendScheme: string, images: seq<Option<Image>>)
    ensures var r := OsTplList(backendScheme, images);
      (forall img :: Some(img) in images ==> MixinFromImage(backendScheme, img) in r) &&
      forall m :: m in r ==> exists img :: Some(img) in images && m == MixinFromImage(backendScheme, img)
  {
    var r := OsTplList(backendScheme, images);
    var p := Present(images);
    forall img | Some(img) in images ensures MixinFromImage(backendScheme, img) in r {
      var i :| 0 <= i < |p| && p[i] == img;
      assert r[i] == MixinFromImage(backendScheme, img);
    }
    forall m | m in r ensures exists img :: Some(img) in images && m == MixinFromImage(backendScheme, img) {
      var i :| 0 <= i < |r| && r[i] == m;
      assert p[i] in p;
    }
  }

  /** Looking up the term of a listed image finds an image of the same
      name, whenever that name is non-empty and on one line and the listing
      holds no `nil` entry; with a `nil` entry the lookup raises. */
  lemma ListedTermsResolve(backendScheme: string, images: seq<Option<Image>>, img: Image)
    requires Some(img) in images && img.name.Some? && |img.name.value| > 0 && NoChar(img.name.value, '\n')
    ensures var r := OsTplGet(images, MixinFromImage(backendScheme, img).term);
      (None in images ==> r.Err?) &&
      (None !in images ==> r.Ok? && r.value.Some? && r.value.value.name == img.name)
  {
    ImageTermRoundTrip(img.name.value);
  }

  /** As written, `os_tpl_get` answers the Azure image, not a mixin: asked
      for the term `os_tpl_list` published for an image, it answers an
      image whose name is not that term. */
  lemma GetAnswersImage(backendScheme: string, images: seq<Option<Image>>, img: Image)
    requires Some(img) in images && img.name.Some? && |img.name.value| > 0 && NoChar(img.name.value, '\n')
    ensures var term := MixinFromImage(backendScheme, img).term;
      None !in images ==>
        OsTplGet(images, term).Ok? && OsTplGet(images, term).value.Some? &&
        OsTplGet(images, term).value.value.name != Some(term)
  {
    ListedTermsResolve(backendScheme, images, img);
    var term := MixinFromImage(backendScheme, img).term;
    assert |term| == |TermPrefix| + |img.name.value|;
  }

  /** `os_tpl_get` as its documentation states it: the listed mixin whose
      term is the given term. */
  function OsTplGetListed(backendScheme: string, images: seq<Option<Image>>, term: string): (r: Option<Mixin>)
    ensures r.Some? ==> r.value.term == term && r.value in OsTplList(backendScheme, images)
    ensures r.None? <==> forall i :: 0 <= i < |OsTplList(backendScheme, images)| ==> OsTplList(backendScheme, images)[i].term != term
  {
    WithTerm(OsTplList(backendScheme, images), term)
  }

  /** Every listed image is found again by its term, as a mixin carrying
      that term, whatever its name: a missing name or one with line breaks
      included. */
  lemma ListThenGetListed(backendScheme: string, images: seq<Option<Image>>, img: Image)
    requires Some(img) in images
    ensures var term := ImageToTerm(img.name);
      var r := OsTplGetListed(backendScheme, images, term);
      r.Some? && r.value.term == term && r.value.depends == [OsTplMixinId]
  {
    OsTplListCovers(backendScheme, images);
    var listed := OsTplList(backendScheme, images);
    var m := MixinFromImage(backendScheme, img);
    var i :| 0 <= i < |listed| && listed[i] == m;
    var r := OsTplGetListed(backendScheme, images, m.term);
    var j :| IsFirstWithTerm(listed, m.term, j) && listed[j] == r.value;
    assert listed[j] == MixinFromImage(backendScheme, Present(images)[j]);
  }
}

=== FILE: azure_resource_tpl.dfy ===
/** The Azure resource_tpl codec: a VM size name becomes the mixin term
    `uuid_<normalised name>__<sha1 of the name>`, and a term is decoded with
    `^uuid_(.+)__([[:alnum:]]{40})$` (Ruby line anchors) back to the digest,
    which is then matched against the digests of the fixture size names.
    `sha1` stands for `Digest::SHA1.hexdigest`. */
module AzureResourceTpl {
  import opened Wrappers
  import opened Strings
  import opened Occi

  const TermPrefix := "uuid_"
  const Separator := "__"

  /** Characters a normalised size name may hold: `[a-z0-9\-_]`. */
  predicate IsNameChar(c: char) { IsLower(c) || IsDigit(c) || c == '-' || c == '_' }

  predicate NoDoubleUnderscore(s: string) {
    forall i :: 0 <= i < |s| - 1 ==> !(s[i] == '_' && s[i + 1] == '_')
  }

  /** Well-formed normalised name: only name characters, no run of two
      underscores, no underscore at either end. */
  predicate WellFormedName(s: string) {
    && (forall i :: 0 <= i < |s| ==> IsNameChar(s[i]))
    && NoDoubleUnderscore(s)
    && (|s| > 0 ==> s[0] != '_' && s[|s| - 1] != '_')
  }

  /** `downcase` followed by `gsub(/[^a-z0-9\-]/, '_')`, per character. */
  function SizeChar(c: char): (r: char)
    ensures IsNameChar(r)
    ensures r != '_' <==> IsAlnum(c) || c == '-'
  {
    var l := ToLower(c);
    if IsLower(l) || IsDigit(l) || l == '-' then l else '_'
  }

  function ReplaceChars(s: string): (r: string)
    ensures |r| == |s|
    ensures forall i :: 0 <= i < |s| ==> r[i] == SizeChar(s[i])
  {
    if |s| == 0 then [] else [SizeChar(s[0])] + ReplaceChars(s[1..])
  }

  /** `gsub(/_+/, '_')`: every run of underscores becomes one. */
  function Squeeze(s: string): (r: string)
    ensures |r| <= |s|
    ensures |s| > 0 ==> |r| > 0 && r[0] == s[0] && r[|r| - 1] == s[|s| - 1]
    ensures forall c :: c in r ==> c in s
    ensures forall c :: c != '_' ==> (c in r <==> c in s)
    ensures NoDoubleUnderscore(r)
  {
    if |s| <= 1 then s
    else if s[0] == '_' && s[1] == '_' then
      var r := Squeeze(s[1..]);
      assert forall c :: c in s <==> c == s[0] || c in s[1..];
      r
    else
      var rest := Squeeze(s[1..]);
      assert forall c :: c in s <==> c == s[0] || c in s[1..];
      var r := [s[0]] + rest;
      assert forall i :: 1 <= i < |r| ==> r[i] == rest[i - 1];
      r
  }

  /** `gsub(/^_|_$/, '')` on a single-line string. */
  function TrimUnderscores(s: string): (r: string)
    ensures forall c :: c in r ==> c in s
    ensures forall c :: c != '_' ==> (c in r <==> c in s)
    ensures NoDoubleUnderscore(s) ==> NoDoubleUnderscore(r) && (|r| > 0 ==> r[0] != '_' && r[|r| - 1] != '_')
  {
    var a := if |s| > 0 && s[0] == '_' then s[1..] else s;
    assert forall c :: c in s <==> c in a || (|s| > 0 && c == s[0]);
    var r := if |a| > 0 && a[|a| - 1] == '_' then a[..|a| - 1] else a;
    assert forall c :: c in a <==> c in r || (|a| > 0 && c == a[|a| - 1]);
    r
  }

  /** The characters of `s` other than underscores, in order. */
  function NonUnderscores(s: string): (r: string)
    ensures |r| <= |s|
  {
    if |s| == 0 then "" else (if s[0] == '_' then "" else [s[0]]) + NonUnderscores(s[1..])
  }

  /** Where `s` has underscores, relative to its other characters: slot `k`
      tells whether an underscore stands right before the `k`-th
      non-underscore character, the last slot whether one ends `s`. */
  function UnderscoreSlots(s: string): (r: seq<bool>)
    ensures |r| == |NonUnderscores(s)| + 1
    ensures r[0] <==> |s| > 0 && s[0] == '_'
  {
    if |s| == 0 then [false]
    else if s[0] == '_' then [true] + UnderscoreSlots(s[1..])[1..]
    else [false] + UnderscoreSlots(s[1..])
  }

  lemma {:induction false} NonUnderscoresSnoc(t: string, c: char)
    ensures NonUnderscores(t + [c]) == NonUnderscores(t) + (if c == '_' then "" else [c])
  {
    if |t| > 0 {
      assert (t + [c])[1..] == t[1..] + [c];
      NonUnderscoresSnoc(t[1..], c);
    }
  }

  /** One more character at the end sets the last slot, or adds a clear
      one. */
  lemma {:induction false} SlotsSnoc(t: string, c: char)
    ensures var st := UnderscoreSlots(t);
      UnderscoreSlots(t + [c]) == if c == '_' then st[..|st| - 1] + [true] else st + [false]
  {
    if |t| > 0 {
      assert (t + [c])[1..] == t[1..] + [c];
      SlotsSnoc(t[1..], c);
      NonUnderscoresSnoc(t[1..], c);
    }
  }

  /** The first character and the first slot of a non-empty string. */
  lemma Unfold(s: string)
    requires |s| > 0
    ensures s[0] == '_' ==>
      NonUnderscores(s) == NonUnderscores(s[1..]) && UnderscoreSlots(s)[1..] == UnderscoreSlots(s[1..])[1..]
    ensures s[0] != '_' ==>
      NonUnderscores(s) == [s[0]] + NonUnderscores(s[1..]) && UnderscoreSlots(s)[1..] == UnderscoreSlots(s[1..])
  {
  }

  /** Two strings without a run of underscores are equal when their other
      characters and their underscore slots are. */
  lemma {:induction false} SlotsDetermine(a: string, b: string)
    requires NoDoubleUnderscore(a) && NoDoubleUnderscore(b)
    requires NonUnderscores(a) == NonUnderscores(b) && UnderscoreSlots(a) == UnderscoreSlots(b)
    ensures a == b
  {
    if |a| > 0 && |b| > 0 {
      Unfold(a);
      Unfold(b);
      var ta, tb := a[1..], b[1..];
      assert NoDoubleUnderscore(ta) && NoDoubleUnderscore(tb);
      if a[0] == '_' {
        assert !UnderscoreSlots(ta)[0] && !UnderscoreSlots(tb)[0];
        assert UnderscoreSlots(ta) == [false] + UnderscoreSlots(ta)[1..];
        assert UnderscoreSlots(tb) == [false] + UnderscoreSlots(tb)[1..];
      } else {
        assert NonUnderscores(a)[0] == a[0] && NonUnderscores(b)[0] == b[0];
        assert NonUnderscores(ta) == NonUnderscores(a)[1..];
        assert NonUnderscores(tb) == NonUnderscores(b)[1..];
      }
      SlotsDetermine(ta, tb);
      assert a == [a[0]] + ta;
      assert b == [b[0]] + tb;
    }
  }

  /** Squeezing keeps the other characters in order and an underscore
      wherever there was one. */
  lemma {:induction false} SqueezeKeepsOrder(s: string)
    ensures NonUnderscores(Squeeze(s)) == NonUnderscores(s)
    ensures UnderscoreSlots(Squeeze(s)) == UnderscoreSlots(s)
  {
    if |s| > 1 {
      SqueezeKeepsOrder(s[1..]);
      if s[0] == '_' && s[1] == '_' {
        assert s[1..][1..] == s[2..];
      } else {
        var r := Squeeze(s);
        assert r[0] == s[0] && r[1..] == Squeeze(s[1..]);
      }
    }
  }

  /** The last slot tells whether the string ends with an underscore. */
  lemma LastSlot(t: string)
    requires |t| > 0
    ensures var st := UnderscoreSlots(t); st[|st| - 1] <==> t[|t| - 1] == '_'
  {
    assert t == t[..|t| - 1] + [t[|t| - 1]];
    SlotsSnoc(t[..|t| - 1], t[|t| - 1]);
  }

  /** Without a run of underscores, a string of underscores only is empty
      or one underscore. */
  lemma OnlyUnderscores(s: string)
    requires NoDoubleUnderscore(s) && NonUnderscores(s) == ""
    ensures |s| <= 1 && (|s| == 1 ==> s[0] == '_')
  {
    if |s| > 0 {
      Unfold(s);
    }
  }

  /** Dropping a leading underscore keeps the other characters and, when
      no run of underscores follows, clears the first slot. */
  lemma DropLeading(s: string)
    requires |s| > 0 && s[0] == '_'
    ensures NonUnderscores(s[1..]) == NonUnderscores(s)
    ensures NoDoubleUnderscore(s) ==> UnderscoreSlots(s[1..]) == [false] + UnderscoreSlots(s)[1..]
  {
    Unfold(s);
    var st := UnderscoreSlots(s[1..]);
    if NoDoubleUnderscore(s) {
      assert !st[0];
      assert st == [st[0]] + st[1..];
    }
  }

  /** Dropping a trailing underscore keeps the other characters and clears
      the last slot, the others staying. */
  lemma DropTrailing(a: string)
    requires |a| > 0 && a[|a| - 1] == '_'
    ensures var r := a[..|a| - 1];
      NonUnderscores(r) == NonUnderscores(a) &&
      UnderscoreSlots(r)[..|NonUnderscores(a)|] == UnderscoreSlots(a)[..|NonUnderscores(a)|]
  {
    var r := a[..|a| - 1];
    assert a == r + ['_'];
    NonUnderscoresSnoc(r, '_');
    SlotsSnoc(r, '_');
  }

  /** `TrimUnderscores` drops one leading and then one trailing
      underscore. */
  lemma TrimSteps(s: string)
    ensures var a := if |s| > 0 && s[0] == '_' then s[1..] else s;
      TrimUnderscores(s) == if |a| > 0 && a[|a| - 1] == '_' then a[..|a| - 1] else a
  {
  }

  /** Trimming keeps the other characters in order. */
  lemma TrimKeepsNonUnderscores(s: string)
    ensures NonUnderscores(TrimUnderscores(s)) == NonUnderscores(s)
  {
    var a := if |s| > 0 && s[0] == '_' then s[1..] else s;
    TrimSteps(s);
    if |s| > 0 && s[0] == '_' {
      DropLeading(s);
    }
    if |a| > 0 && a[|a| - 1] == '_' {
      DropTrailing(a);
    }
  }

  /** Dropping a leading underscore, if any, from a string without a run
      of underscores clears the first slot. */
  lemma FrontCleared(s: string, a: string)
    requires NoDoubleUnderscore(s)
    requires a == if |s| > 0 && s[0] == '_' then s[1..] else s
    ensures NoDoubleUnderscore(a) && NonUnderscores(a) == NonUnderscores(s)
    ensures UnderscoreSlots(a) == [false] + UnderscoreSlots(s)[1..]
  {
    if |s| > 0 && s[0] == '_' {
      DropLeading(s);
    }
  }

  /** Dropping a trailing underscore, if any, from a string without a run
      of underscores clears the last slot. */
  lemma BackCleared(a: string, r: string)
    requires NoDoubleUnderscore(a) && |NonUnderscores(a)| > 0
    requires r == if |a| > 0 && a[|a| - 1] == '_' then a[..|a| - 1] else a
    ensures NonUnderscores(r) == NonUnderscores(a)
    ensures var n := |NonUnderscores(a)|; UnderscoreSlots(r) == UnderscoreSlots(a)[..n] + [false]
  {
    var n := |NonUnderscores(a)|;
    if |a| > 0 && a[|a| - 1] == '_' {
      DropTrailing(a);
      assert |r| > 0;
      assert r[|r| - 1] == a[|a| - 2];
    } else {
      assert |a| > 0;
      LastSlot(a);
    }
    LastSlot(r);
    var sr := UnderscoreSlots(r);
    assert sr == sr[..n] + [sr[n]];
  }

  /** The slots of `s` once one leading and one trailing underscore are
      dropped. */
  lemma TrimmedSlots(s: string, a: string, r: string)
    requires NoDoubleUnderscore(s) && |NonUnderscores(s)| > 0
    requires a == if |s| > 0 && s[0] == '_' then s[1..] else s
    requires r == if |a| > 0 && a[|a| - 1] == '_' then a[..|a| - 1] else a
    ensures var n := |NonUnderscores(s)|;
      UnderscoreSlots(r) == [false] + UnderscoreSlots(s)[1..n] + [false]
  {
    FrontCleared(s, a);
    BackCleared(a, r);
    var n := |NonUnderscores(s)|;
    assert UnderscoreSlots(a)[..n] == [false] + UnderscoreSlots(s)[1..n];
  }

  /** On a string without a run of underscores, trimming clears the first
      and last slot and keeps the others, and leaves nothing of a string
      made of underscores. */
  lemma TrimSlots(s: string)
    requires NoDoubleUnderscore(s)
    ensures var n := |NonUnderscores(s)|;
      n > 0 ==> UnderscoreSlots(TrimUnderscores(s)) == [false] + UnderscoreSlots(s)[1..n] + [false]
    ensures NonUnderscores(s) == "" ==> TrimUnderscores(s) == ""
  {
    var a := if |s| > 0 && s[0] == '_' then s[1..] else s;
    var r := if |a| > 0 && a[|a| - 1] == '_' then a[..|a| - 1] else a;
    TrimSteps(s);
    if NonUnderscores(s) == "" {
      OnlyUnderscores(s);
    } else {
      TrimmedSlots(s, a, r);
    }
  }

  /** The normalised part of a size term. */
  function Normalise(name: string): (r: string)
    ensures WellFormedName(r)
  {
    var replaced := ReplaceChars(name);
    SqueezeThenTrimIsWellFormed(replaced);
    TrimUnderscores(Squeeze(replaced))
  }

  /** Normalising keeps, in order, the characters the replacement did not
      turn into underscores, with one underscore between two of them
      exactly where the replaced name had some, and none at either end. */
  lemma NormaliseKeepsOrder(name: string)
    ensures var replaced := ReplaceChars(name);
      var n := |NonUnderscores(replaced)|;
      NonUnderscores(Normalise(name)) == NonUnderscores(replaced) &&
      (n > 0 ==> UnderscoreSlots(Normalise(name)) == [false] + UnderscoreSlots(replaced)[1..n] + [false]) &&
      (n == 0 ==> Normalise(name) == "")
  {
    var replaced := ReplaceChars(name);
    var squeezed := Squeeze(replaced);
    SqueezeKeepsOrder(replaced);
    TrimKeepsNonUnderscores(squeezed);
    TrimSlots(squeezed);
  }

  /** The squeezed string is the only one without a run of underscores
      that keeps the other characters and the underscore slots. */
  lemma SqueezeIsUnique(s: string, t: string)
    requires NoDoubleUnderscore(t)
    requires NonUnderscores(t) == NonUnderscores(s) && UnderscoreSlots(t) == UnderscoreSlots(s)
    ensures t == Squeeze(s)
  {
    SqueezeKeepsOrder(s);
    SlotsDetermine(t, Squeeze(s));
  }

  /** Squeezing and trimming a string of name characters leaves a
      well-formed name. */
  lemma SqueezeThenTrimIsWellFormed(s: string)
    requires forall i :: 0 <= i < |s| ==> IsNameChar(s[i])
    ensures WellFormedName(TrimUnderscores(Squeeze(s)))
  {
    var r := TrimUnderscores(Squeeze(s));
    assert forall c :: c in s ==> IsNameChar(c);
    forall i | 0 <= i < |r| ensures IsNameChar(r[i]) {
      assert r[i] in r;
    }
  }

  /** The normalised part is empty exactly when the name has no letter,
      digit or hyphen. */
  lemma NormaliseEmpty(name: string)
    ensures Normalise(name) == "" <==> forall i :: 0 <= i < |name| ==> !(IsAlnum(name[i]) || name[i] == '-')
  {
    var replaced := ReplaceChars(name);
    var squeezed := Squeeze(replaced);
    var r := TrimUnderscores(squeezed);
    assert Normalise(name) == r;
    if exists i :: 0 <= i < |name| && (IsAlnum(name[i]) || name[i] == '-') {
      var i :| 0 <= i < |name| && (IsAlnum(name[i]) || name[i] == '-');
      assert replaced[i] in replaced && replaced[i] != '_';
      assert replaced[i] in r;
    } else {
      assert forall c :: c in replaced ==> c == '_';
      assert forall c :: c in r ==> c == '_';
      forall i | 0 <= i < |r| ensures r[i] == '_' {
        assert r[i] in r;
      }
    }
  }

  lemma {:induction false} SqueezeKeepsSqueezed(s: string)
    requires NoDoubleUnderscore(s)
    ensures Squeeze(s) == s
  {
    if |s| > 1 {
      SqueezeKeepsSqueezed(s[1..]);
    }
  }

  /** Normalising is idempotent: a normalised name is its own normal form. */
  lemma NormaliseIdempotent(name: string)
    ensures Normalise(Normalise(name)) == Normalise(name)
  {
    var n := Normalise(name);
    assert ReplaceChars(n) == n;
    SqueezeKeepsSqueezed(n);
  }

  /** `resource_tpl_list_size_name_to_term`. */
  function SizeNameToTerm(sha1: string -> HexDigest, name: string): (t: string)
    ensures |t| == |TermPrefix| + |Normalise(name)| + |Separator| + 40
    ensures StartsWith(t, TermPrefix)
    ensures t[|TermPrefix|..|t| - 42] == Normalise(name)
    ensures t[|t| - 42..|t| - 40] == Separator && t[|t| - 40..] == sha1(name)
    ensures forall i :: |t| - 40 <= i < |t| ==> IsAlnum(t[i])
  {
    var h := sha1(name);
    var t := TermPrefix + Normalise(name) + Separator + h;
    assert t[|TermPrefix|..|t| - 42] == Normalise(name);
    assert t[|t| - 40..] == h;
    assert forall i :: |t| - 40 <= i < |t| ==> t[i] == h[i - (|t| - 40)];
    t
  }

  /** The pattern tried on one line: prefix, a non-empty middle, the
      separator and exactly forty alphanumerics up to the line end. */
  function MatchSizeLine(line: string): (r: Option<string>)
    ensures r.Some? ==> |r.value| == 40 && EndsWith(line, Separator + r.value)
  {
    if |line| >= |TermPrefix| + 1 + |Separator| + 40 && StartsWith(line, TermPrefix)
       && line[|line| - 42..|line| - 40] == Separator
       && forall i :: |line| - 40 <= i < |line| ==> IsAlnum(line[i])
    then
      assert line[|line| - 42..] == line[|line| - 42..|line| - 40] + line[|line| - 40..];
      Some(line[|line| - 40..])
    else None
  }

  /** `resource_tpl_list_term_to_size_hash`: the digest captured from the
      first matching line of the term, or `nil`. */
  function TermToSizeHash(term: string): (r: Option<string>)
    ensures r.Some? ==> |r.value| == 40 && (forall i :: 0 <= i < 40 ==> IsAlnum(r.value[i]))
    decreases |term|
  {
    var n := LineLength(term);
    var m := MatchSizeLine(term[..n]);
    if m.Some? then m
    else if n == |term| then None
    else TermToSizeHash(term[n + 1..])
  }

  lemma SingleLineTerm(term: string)
    requires NoChar(term, '\n')
    ensures TermToSizeHash(term) == MatchSizeLine(term)
  {
    var n := LineLength(term);
    assert n == |term|;
    assert term[..n] == term;
  }

  /** Round trip: the term of a size name decodes to the digest of that
      name exactly when the normalised part is non-empty; otherwise the
      `.+` of the pattern has nothing to match and the term is rejected. */
  lemma SizeTermRoundTrip(sha1: string -> HexDigest, name: string)
    ensures TermToSizeHash(SizeNameToTerm(sha1, name)) ==
      if Normalise(name) != "" then Some(sha1(name)) else None
  {
    var t := SizeNameToTerm(sha1, name);
    SizeTermIsOneLine(sha1, name);
    SingleLineTerm(t);
  }

  /** A size term holds no line break: prefix, name characters, underscores
      and hexadecimal digits only. */
  lemma SizeTermIsOneLine(sha1: string -> HexDigest, name: string)
    ensures NoChar(SizeNameToTerm(sha1, name), '\n')
  {
    var n := Normalise(name);
    var h := sha1(name);
    var t := SizeNameToTerm(sha1, name);
    forall i | 0 <= i < |t| ensures t[i] != '\n' {
      if i < 5 {
        assert t[i] == TermPrefix[i];
      } else if i < 5 + |n| {
        assert t[i] == n[i - 5];
        assert IsNameChar(n[i - 5]);
      } else if i >= |t| - 40 {
        assert IsAlnum(t[i]);
      }
    }
  }

  /** The first fixture whose raw term has digest `h`. */
  function FirstWithDigest(sha1: string -> HexDigest, fixtures: seq<Mixin>, h: string): (r: Option<Mixin>)
    ensures r.Some? ==> exists i :: IsFirstWithDigest(sha1, fixtures, h, i) && fixtures[i] == r.value
    ensures r.None? ==> forall i :: 0 <= i < |fixtures| ==> sha1(fixtures[i].term) != h
  {
    if |fixtures| == 0 then None
    else if sha1(fixtures[0].term) == h then
      assert IsFirstWithDigest(sha1, fixtures, h, 0);
      Some(fixtures[0])
    else
      var r := FirstWithDigest(sha1, fixtures[1..], h);
      if r.Some? then
        var i :| IsFirstWithDigest(sha1, fixtures[1..], h, i) && fixtures[1..][i] == r.value;
        assert IsFirstWithDigest(sha1, fixtures, h, i + 1);
        r
      else r
  }

  predicate IsFirstWithDigest(sha1: string -> HexDigest, fixtures: seq<Mixin>, h: string, i: int) {
    0 <= i < |fixtures| && sha1(fixtures[i].term) == h &&
    forall j :: 0 <= j < i ==> sha1(fixtures[j].term) != h
  }

  /** `resource_tpl_get`: the first fixture whose raw term hashes to the
      decoded digest; `nil` when the term does not decode. */
  function ResourceTplGet(sha1: string -> HexDigest, fixtures: seq<Mixin>, term: string): (r: Option<Mixin>)
    ensures TermToSizeHash(term).None? ==> r.None?
    ensures r.Some? ==> r.value in fixtures && Some(sha1(r.value.term)) == TermToSizeHash(term)
    ensures TermToSizeHash(term).Some? ==>
      (r.None? <==> forall i :: 0 <= i < |fixtures| ==> sha1(fixtures[i].term) != TermToSizeHash(term).value)
    ensures r.Some? ==> exists i :: IsFirstWithDigest(sha1, fixtures, TermToSizeHash(term).value, i) && fixtures[i] == r.value
  {
    match TermToSizeHash(term)
    case None => None
    case Some(h) => FirstWithDigest(sha1, fixtures, h)
  }

  /** `resource_tpl_list`: the fixtures in order, each with only its term
      rewritten to the encoded form. */
  function ResourceTplList(sha1: string -> HexDigest, fixtures: seq<Mixin>): (r: seq<Mixin>)
    ensures |r| == |fixtures|
    ensures forall i :: 0 <= i < |r| ==>
      r[i].term == SizeNameToTerm(sha1, fixtures[i].term) && r[i].(term := fixtures[i].term) == fixtures[i]
  {
    seq(|fixtures|, i requires 0 <= i < |fixtures| => fixtures[i].(term := SizeNameToTerm(sha1, fixtures[i].term)))
  }

  /** Looking up a listed term finds a fixture with the same digest, and
      the very fixture it was listed for when no other fixture shares that
      digest, provided the size name has a letter, digit or hyphen. */
  lemma ListThenGet(sha1: string -> HexDigest, fixtures: seq<Mixin>, i: int)
    requires 0 <= i < |fixtures|
    requires exists k :: 0 <= k < |fixtures[i].term| && (IsAlnum(fixtures[i].term[k]) || fixtures[i].term[k] == '-')
    ensures var r := ResourceTplGet(sha1, fixtures, ResourceTplList(sha1, fixtures)[i].term);
      r.Some? && sha1(r.value.term) == sha1(fixtures[i].term) &&
      ((forall j :: 0 <= j < |fixtures| && sha1(fixtures[j].term) == sha1(fixtures[i].term) ==> j == i) ==>
        r == Some(fixtures[i]))
  {
    var name := fixtures[i].term;
    NormaliseEmpty(name);
    SizeTermRoundTrip(sha1, name);
    var h := sha1(name);
    var r := FirstWithDigest(sha1, fixtures, h);
    assert r.Some?;
  }

  /** As written, `resource_tpl_get` answers the fixture itself, whose term
      is the raw size name, so the mixin it returns does not carry the term
      it was asked for, although the term is the one `resource_tpl_list`
      published for that very fixture. */
  lemma GetAnswersRawFixture(sha1: string -> HexDigest, fixture: Mixin)
    requires !StartsWith(fixture.term, TermPrefix)
    requires exists k :: 0 <= k < |fixture.term| && (IsAlnum(fixture.term[k]) || fixture.term[k] == '-')
    ensures var term := ResourceTplList(sha1, [fixture])[0].term;
      ResourceTplGet(sha1, [fixture], term) == Some(fixture) && fixture.term != term
  {
    var k :| 0 <= k < |fixture.term| && (IsAlnum(fixture.term[k]) || fixture.term[k] == '-');
    assert [fixture][0].term[k] == fixture.term[k];
    ListThenGet(sha1, [fixture], 0);
  }

  /** `resource_tpl_get` as its documentation states it: the listed mixin
      whose term is the given term. */
  function ResourceTplGetListed(sha1: string -> HexDigest, fixtures: seq<Mixin>, term: string): (r: Option<Mixin>)
    ensures r.Some? ==> r.value.term == term && r.value in ResourceTplList(sha1, fixtures)
    ensures r.None? <==> forall i :: 0 <= i < |fixtures| ==> ResourceTplList(sha1, fixtures)[i].term != term
  {
    WithTerm(ResourceTplList(sha1, fixtures), term)
  }

  /** Every listed term is found again, as the mixin listed first under it,
      which is the fixture with the term rewritten. */
  lemma ListThenGetListed(sha1: string -> HexDigest, fixtures: seq<Mixin>, i: int)
    requires 0 <= i < |fixtures|
    ensures var term := ResourceTplList(sha1, fixtures)[i].term;
      var r := ResourceTplGetListed(sha1, fixtures, term);
      r.Some? && r.value.term == term &&
      exists j :: 0 <= j <= i && r.value == fixtures[j].(term := term)
  {
    var listed := ResourceTplList(sha1, fixtures);
    var term := listed[i].term;
    var r := ResourceTplGetListed(sha1, fixtures, term);
    assert listed[i].term == term;
    var j :| IsFirstWithTerm(listed, term, j) && listed[j] == r.value;
    assert j <= i;
    assert r.value == fixtures[j].(term := term);
  }
}

=== FILE: compute_kind.dfy ===
/** The OCCI infrastructure `compute` kind: its four actions, its three-state
    machine, its attribute table and the per-instance copy of the machine. */
module ComputeKind {
  import opened Wrappers

  datatype State = Inactive | Active | Suspended

  /** The four declared compute actions; a transition label can only be one
      of these. */
  datatype Action = Restart | Start | Stop | Suspend

  const ActionScheme := "http://schemas.ogf.org/occi/infrastructure/compute/action#"

  function ActionTerm(a: Action): string {
    match a
    case Restart => "restart"
    case Start => "start"
    case Stop => "stop"
    case Suspend => "suspend"
  }

  /** The attribute names each action declares. */
  function ActionAttributes(a: Action): seq<string> {
    match a
    case Restart => ["graceful", "warm", "cold"]
    case Start => []
    case Stop => ["graceful", "acpioff", "poweroff"]
    case Suspend => ["hibernate", "suspend"]
  }

  const Actions: seq<Action> := [Restart, Start, Stop, Suspend]

  function StateName(s: State): string {
    match s
    case Inactive => "inactive"
    case Active => "active"
    case Suspended => "suspended"
  }

  datatype Edge = Edge(from: State, action: Action, to: State)

  /** A state machine as the source declares one: an initial state, the list
      of states and the action-labelled edges added to each state. */
  datatype Machine = Machine(initial: State, states: seq<State>, edges: seq<Edge>)

  const ComputeMachine := Machine(
    Active,
    [Inactive, Active, Suspended],
    [ Edge(Inactive, Restart, Active),
      Edge(Active, Stop, Inactive),
      Edge(Active, Suspend, Suspended),
      Edge(Suspended, Start, Active) ])

  /** The target of the first edge leaving `s` labelled `a`, if any. */
  function Next(edges: seq<Edge>, s: State, a: Action): (r: Option<State>)
    ensures r.Some? <==> exists i :: 0 <= i < |edges| && edges[i].from == s && edges[i].action == a
    ensures r.Some? ==> Edge(s, a, r.value) in edges
  {
    if |edges| == 0 then None
    else if edges[0].from == s && edges[0].action == a then Some(edges[0].to)
    else
      var r := Next(edges[1..], s, a);
      assert forall i :: 1 <= i < |edges| ==> edges[i] == edges[1..][i - 1];
      r
  }

  /** No two edges share a source and a label. */
  predicate Deterministic(m: Machine) {
    forall i, j ::
      (0 <= i < |m.edges| && 0 <= j < |m.edges| && m.edges[i].from == m.edges[j].from &&
       m.edges[i].action == m.edges[j].action) ==> i == j
  }

  /** The compute transitions as the state diagram draws them. */
  function Diagram(s: State, a: Action): Option<State> {
    match (s, a)
    case (Inactive, Restart) => Some(Active)
    case (Active, Stop) => Some(Inactive)
    case (Active, Suspend) => Some(Suspended)
    case (Suspended, Start) => Some(Active)
    case _ => None
  }

  /** The declared machine starts in `active`, lists each of the three
      states once and has no two edges with the same source and label. */
  lemma ComputeMachineShape()
    ensures ComputeMachine.initial == Active
    ensures |ComputeMachine.states| == 3 && forall t: State :: t in ComputeMachine.states
    ensures Deterministic(ComputeMachine)
  {
    forall t: State ensures t in ComputeMachine.states {
      var i := match t case Inactive => 0 case Active => 1 case Suspended => 2;
      assert ComputeMachine.states[i] == t;
    }
  }

  /** The declared edges fire exactly the transitions of the diagram:
      `restart` is the only way out of `inactive`, `start` the only way out
      of `suspended`, and `active` has no `start` edge. */
  lemma ComputeMachineIsDiagram(s: State, a: Action)
    ensures Next(ComputeMachine.edges, s, a) == Diagram(s, a)
  {
    var e := ComputeMachine.edges;
    assert e[1..][1..][1..][1..] == [];
    if s == Inactive && a == Restart {
    } else if s == Active && a == Stop {
      assert Next(e, s, a) == Next(e[1..], s, a);
    } else if s == Active && a == Suspend {
      assert Next(e, s, a) == Next(e[1..], s, a) == Next(e[1..][1..], s, a);
    } else if s == Suspended && a == Start {
      assert Next(e, s, a) == Next(e[1..], s, a) == Next(e[1..][1..], s, a) == Next(e[1..][1..][1..], s, a);
    } else {
      assert Next(e, s, a) == Next(e[1..], s, a) == Next(e[1..][1..], s, a)
        == Next(e[1..][1..][1..], s, a) == Next(e[1..][1..][1..][1..], s, a);
    }
  }

  /** `fire`: follow the edge for `a`, or refuse and keep the state. */
  function Fire(m: Machine, s: State, a: Action): (r: Option<State>)
    ensures r.Some? <==> exists e :: e in m.edges && e.from == s && e.action == a
    ensures r.Some? ==> Edge(s, a, r.value) in m.edges
    ensures Deterministic(m) ==> forall t :: Edge(s, a, t) in m.edges ==> r == Some(t)
  {
    var r := Next(m.edges, s, a);
    if r.Some? then r
    else
      assert forall e :: e in m.edges && e.from == s ==> e.action != a;
      r
  }

  // Kind identity

  const KindScheme := "http://schemas.ogf.org/occi/infrastructure#"
  const KindTerm := "compute"
  function TypeIdentifier(scheme: string, term: string): string { scheme + term }

  /** The kind type written into every new instance. */
  const InstanceKindType := "http://schemas.ogf.org/occi/infrastructure#compute"

  lemma InstanceKindTypeIsKindIdentifier()
    ensures InstanceKindType == TypeIdentifier(KindScheme, KindTerm)
  {
  }

  // Attribute table

  datatype Attribute = Attribute(name: string, mutable: bool, mandatory: bool, unique: bool)

  const ComputeAttributes: seq<Attribute> := [
    Attribute("occi.compute.cores", true, false, true),
    Attribute("occi.compute.architecture", true, false, true),
    Attribute("occi.compute.state", false, true, true),
    Attribute("occi.compute.hostname", true, false, true),
    Attribute("occi.compute.memory", true, false, true),
    Attribute("occi.compute.speed", true, false, true),
    Attribute("occi.compute.id", true, false, true)
  ]

  /** Whether a write to attribute `name` is allowed by `table`. */
  predicate Writable(table: seq<Attribute>, name: string) {
    exists i :: 0 <= i < |table| && table[i].name == name && table[i].mutable
  }

  /** Whether `present` holds every attribute `table` marks mandatory. */
  predicate Complete(table: seq<Attribute>, present: set<string>) {
    forall i :: 0 <= i < |table| && table[i].mandatory ==> table[i].name in present
  }

  const StateAttribute := "occi.compute.state"

  /** `occi.compute.state` is the one attribute that cannot be written and the
      one attribute an instance must carry; the other six are writable. */
  lemma StateIsTheOnlyFixedAttribute(name: string, present: set<string>)
    ensures Writable(ComputeAttributes, name) <==>
      (name != StateAttribute && exists i :: 0 <= i < |ComputeAttributes| && ComputeAttributes[i].name == name)
    ensures Complete(ComputeAttributes, present) <==> StateAttribute in present
    ensures forall i :: 0 <= i < |ComputeAttributes| ==>
      (ComputeAttributes[i].name == StateAttribute <==> (!ComputeAttributes[i].mutable && ComputeAttributes[i].mandatory))
  {
    if Complete(ComputeAttributes, present) {
      assert ComputeAttributes[2].mandatory;
    }
  }

  // Instances

  /** A compute instance with its own copy of the machine and current state. */
  datatype Compute = Compute(kindType: string, attributes: map<string, string>, machine: Machine, state: State)

  function NewCompute(attributes: map<string, string>): (c: Compute)
    ensures c.kindType == TypeIdentifier(KindScheme, KindTerm)
    ensures c.state == Active && c.machine == ComputeMachine
    ensures c.attributes == attributes
  {
    Compute(InstanceKindType, attributes, ComputeMachine, ComputeMachine.initial)
  }

  /** Triggers `a` on the instance `id` of a set of live instances.  An
      unknown id or a missing edge changes nothing; otherwise only that one
      instance moves, along its machine's edge. */
  function Trigger(live: map<string, Compute>, id: string, a: Action): (r: Option<map<string, Compute>>)
    ensures r.Some? <==> id in live && Fire(live[id].machine, live[id].state, a).Some?
    ensures r.Some? ==>
      r.value.Keys == live.Keys &&
      Edge(live[id].state, a, r.value[id].state) in live[id].machine.edges &&
      r.value[id] == live[id].(state := r.value[id].state) &&
      forall other :: other in live && other != id ==> r.value[other] == live[other]
  {
    if id !in live then None
    else
      var c := live[id];
      match Fire(c.machine, c.state, a)
      case None => None
      case Some(t) => Some(live[id := c.(state := t)])
  }

  /** Suspending an active compute succeeds, and starting it again straight
      away is refused because `active` has no `start` edge. */
  lemma SuspendThenStart(live: map<string, Compute>, id: string)
    requires id in live && live[id].machine == ComputeMachine && live[id].state == Active
    ensures Trigger(live, id, Suspend).Some?
    ensures Trigger(live, id, Suspend).value[id].state == Suspended
    ensures Trigger(live, id, Start).None?
  {
    ComputeMachineIsDiagram(Active, Suspend);
    ComputeMachineIsDiagram(Active, Start);
    ComputeMachineShape();
  }
}

=== FILE: ec2_network.dfy ===
/** The EC2 helpers that attach and detach networks of a running instance,
    modelled against an abstract account of elastic addresses.  The EC2
    calls are parameters; what they do to the account is stated here. */
module Ec2Network {
  import opened Wrappers
  import opened Strings
  import opened Errors

  /** Where an elastic address lives: EC2-Classic (`standard`) or a VPC. */
  datatype Domain = Standard | Vpc

  /** An allocated elastic address and the instance it is associated with. */
  datatype Address = Address(domain: Domain, instance: Option<string>)

  /** The account's elastic addresses, by public ip or allocation id. */
  datatype Account = Account(addresses: map<string, Address>)

  /** The instance as `compute_get` returns it: the targets of its links. */
  datatype Instance = Instance(linkTargets: seq<string>)

  /** An EC2 call that can fail: an `AuthFailure`, any other error, or done. */
  datatype CallOutcome = Done | AuthFailure(message: string) | CallFailed(error: Raised)

  /** The EC2 calls the helpers make.  `allocate` names the address a new
      allocation gets; `associate` answers an error message or nothing. */
  datatype Ec2Client = Ec2Client(
    computeGet: Option<string> -> Result<Instance, Raised>,
    allocate: (Account, Domain) -> string,
    associate: (Account, string, Option<string>) -> Option<string>,
    disassociate: (Account, string) -> CallOutcome,
    release: (Account, string) -> CallOutcome)

  /** The compute id a network interface's source names: its last
      non-empty `/`-segment. */
  function ComputeId(source: string): (r: Option<string>)
    ensures r.Some? ==> |r.value| > 0 && NoChar(r.value, '/')
    ensures r.None? <==> forall i :: 0 <= i < |source| ==> source[i] == '/'
  {
    LastField(source, '/')
  }

  /** The id of a compute location is its last segment. */
  lemma ComputeIdOfLocation(prefix: string, id: string)
    requires |id| > 0 && NoChar(id, '/')
    ensures ComputeId(prefix + "/" + id) == Some(id)
  {
    assert prefix + "/" + id == prefix + ['/'] + id;
    LastFieldAfterSeparator(prefix, id, '/');
  }

  /** `compute_attach_network_public_has_elastic?`: some address of the
      account is associated with the instance. */
  predicate HasElastic(account: Account, id: Option<string>) {
    exists key :: key in account.addresses && account.addresses[key].instance.Some? &&
      account.addresses[key].instance == id
  }

  /** Whether the instance is in a VPC: some link target's last segment
      contains `vpc-`.  A target made only of `/` has no last segment, and
      asking it raises. */
  function IsVpc(targets: seq<string>): (r: Result<bool, Raised>)
    ensures r.Err? <==> exists i :: 0 <= i < |targets| && LastField(targets[i], '/').None?
    ensures r.Err? ==> r.error.Foreign? && r.error.className == "NoMethodError"
    ensures r.Ok? ==>
      (r.value <==> exists i :: 0 <= i < |targets| && Contains(LastField(targets[i], '/').value, "vpc-"))
  {
    if exists i | 0 <= i < |targets| :: LastField(targets[i], '/').None? then
      Err(Foreign("NoMethodError", "undefined method `include?' for nil:NilClass", true))
    else
      Ok(exists i | 0 <= i < |targets| :: Contains(LastField(targets[i], '/').value, "vpc-"))
  }

  /** The id of the link a public attach creates. */
  function LinkId(id: Option<string>): string {
    "compute_" + id.GetOr("") + "_nic_eni-0"
  }

  /** The instance id can be read back from the link id. */
  lemma LinkIdNamesInstance(id: string)
    ensures var l := LinkId(Some(id));
      |l| == |id| + 18 && l[8..|l| - 10] == id && StartsWith(l, "compute_") && EndsWith(l, "_nic_eni-0")
  {
    var l := LinkId(Some(id));
    assert l == "compute_" + id + "_nic_eni-0";
    assert l[8..|l| - 10] == id;
  }

  /** `inspect` of the compute id: quoted, or `nil`.  Escaping of quotes and
      control characters inside the id is not modelled. */
  function Inspect(id: Option<string>): string {
    match id
    case Some(s) => "\"" + s + "\""
    case None => "nil"
  }

  function AlreadyAttachedMessage(id: Option<string>): string {
    "Resource " + Inspect(id) + " already has a public network attached!"
  }

  /** The domain a public attach allocates in, once the instance is found
      and its links are read: `vpc` for an instance in a VPC. */
  function AttachDomain(client: Ec2Client, source: string): (r: Option<Domain>)
    ensures r.Some? <==>
      client.computeGet(ComputeId(source)).Ok? && IsVpc(client.computeGet(ComputeId(source)).value.linkTargets).Ok?
    ensures r.Some? ==> (r.value == Vpc <==> IsVpc(client.computeGet(ComputeId(source)).value.linkTargets).value)
  {
    match client.computeGet(ComputeId(source))
    case Err(_) => None
    case Ok(instance) =>
      match IsVpc(instance.linkTargets)
      case Err(_) => None
      case Ok(vpc) => Some(if vpc then Vpc else Standard)
  }

  /** The account with a new, unassociated address. */
  function WithNewAddress(account: Account, key: string, domain: Domain): Account {
    Account(account.addresses[key := Address(domain, None)])
  }

  const AuthFailureClass := "Aws::EC2::Errors::AuthFailure"

  /** The exception an EC2 call that did not succeed raises. */
  function Raise(outcome: CallOutcome): (r: Raised)
    requires !outcome.Done?
    ensures outcome.CallFailed? ==> r == outcome.error
    ensures outcome.AuthFailure? ==> r.Foreign? && r.className == AuthFailureClass && r.message == outcome.message
  {
    match outcome
    case AuthFailure(m) => Foreign(AuthFailureClass, m, true)
    case CallFailed(e) => e
  }

  /** `compute_attach_network_public`: look the instance up, refuse one that
      already has an elastic address, allocate an address in the instance's
      domain and associate it; when the association fails, release the
      address again and fail with the association's message.  A release
      that itself fails raises its own error, and the address stays
      allocated. */
  function AttachPublic(client: Ec2Client, account: Account, source: string): (r: (Result<string, Raised>, Account))
    ensures var id := ComputeId(source);
      client.computeGet(id).Err? ==> r == (Err(client.computeGet(id).error), account)
    ensures var id := ComputeId(source);
      client.computeGet(id).Ok? && HasElastic(account, id) ==>
        r == (Err(Backend(ResourceCreationError, AlreadyAttachedMessage(id))), account)
    ensures r.0.Ok? ==> r.0.value == LinkId(ComputeId(source))
    ensures r.0.Ok? ==>
      var id := ComputeId(source);
      AttachDomain(client, source).Some? && !HasElastic(account, id) &&
      var domain := AttachDomain(client, source).value;
      var key := client.allocate(account, domain);
      client.associate(WithNewAddress(account, key, domain), key, id).None? &&
      r.1.addresses == account.addresses[key := Address(domain, id)]
    ensures var id := ComputeId(source);
      AttachDomain(client, source).Some? && !HasElastic(account, id) ==>
      var domain := AttachDomain(client, source).value;
      var key := client.allocate(account, domain);
      var withAddress := WithNewAddress(account, key, domain);
      var failure := client.associate(withAddress, key, id);
      var released := client.release(withAddress, key);
      failure.Some? ==>
        (released.Done? ==>
          r == (Err(Backend(ResourceCreationError, failure.value)), Account(withAddress.addresses - {key}))) &&
        (!released.Done? ==> r == (Err(Raise(released)), withAddress))
  {
    var id := ComputeId(source);
    match client.computeGet(id)
    case Err(e) => (Err(e), account)
    case Ok(instance) =>
      if HasElastic(account, id) then
        (Err(Backend(ResourceCreationError, AlreadyAttachedMessage(id))), account)
      else
        match IsVpc(instance.linkTargets)
        case Err(e) => (Err(e), account)
        case Ok(vpc) =>
          var domain := if vpc then Vpc else Standard;
          var key := client.allocate(account, domain);
          var withAddress := WithNewAddress(account, key, domain);
          match client.associate(withAddress, key, id)
          case None =>
            (Ok(LinkId(id)), Account(account.addresses[key := Address(domain, id)]))
          case Some(message) =>
            var released := client.release(withAddress, key);
            if released.Done? then (Err(Backend(ResourceCreationError, message)), Account(withAddress.addresses - {key}))
            else (Err(Raise(released)), withAddress)
  }

  /** A failed attach leaves the account as it was, unless the release of
      the address it allocated failed too: then exactly that new address is
      left behind, associated with nothing. */
  lemma FailedAttachReleasesAddress(client: Ec2Client, account: Account, source: string)
    requires forall d :: client.allocate(account, d) !in account.addresses
    ensures var r := AttachPublic(client, account, source);
      r.0.Err? ==>
        r.1 == account ||
        (AttachDomain(client, source).Some? &&
         var domain := AttachDomain(client, source).value;
         var key := client.allocate(account, domain);
         r.1 == WithNewAddress(account, key, domain) && !client.release(r.1, key).Done?)
  {
    var id := ComputeId(source);
    if client.computeGet(id).Ok? && !HasElastic(account, id) {
      match IsVpc(client.computeGet(id).value.linkTargets)
      case Err(_) =>
      case Ok(vpc) =>
        var domain := if vpc then Vpc else Standard;
        var key := client.allocate(account, domain);
        ReleaseRestores(account, key, domain);
    }
  }

  /** Releasing a freshly allocated address gives back the account. */
  lemma ReleaseRestores(account: Account, key: string, domain: Domain)
    requires key !in account.addresses
    ensures Account(WithNewAddress(account, key, domain).addresses - {key}) == account
  {
    assert WithNewAddress(account, key, domain).addresses - {key} == account.addresses;
  }

  /** After a successful attach the instance has an elastic address, so a
      second attach is refused. */
  lemma AttachTwiceIsRefused(client: Ec2Client, account: Account, source: string)
    requires ComputeId(source).Some?
    requires AttachPublic(client, account, source).0.Ok?
    ensures var after := AttachPublic(client, account, source).1;
      var again := AttachPublic(client, after, source);
      again.1 == after && again.0.Err? && again.0.error.Backend? && again.0.error.kind == ResourceCreationError
  {
    var id := ComputeId(source);
    var after := AttachPublic(client, account, source).1;
    var key := client.allocate(account, AttachDomain(client, source).value);
    assert after.addresses[key].instance == id;
    assert HasElastic(after, id);
  }

  /** ActiveSupport's `blank?` on the interface address: `nil`, or only
      Unicode whitespace. */
  predicate Blank(address: Option<string>) {
    address.None? || forall i :: 0 <= i < |address.value| ==> IsUnicodeSpace(address.value[i])
  }

  const NoAddressMessage := "Interfaces without an address cannot be detached!"

  /** The account once `ip` is disassociated from its instance. */
  function Disassociated(account: Account, ip: string): (r: Account)
    ensures r.addresses.Keys == account.addresses.Keys
    ensures ip in r.addresses ==> r.addresses[ip].instance.None?
  {
    if ip in account.addresses
    then Account(account.addresses[ip := account.addresses[ip].(instance := None)])
    else account
  }

  /** `compute_detach_network_public`: refuse an interface without an
      address before calling EC2, then disassociate and release it; an
      `AuthFailure` of either call becomes `UserNotAuthorizedError`. */
  function DetachPublic(client: Ec2Client, account: Account, address: Option<string>): (r: (Result<(), Raised>, Account))
    ensures Blank(address) ==> r == (Err(Backend(ResourceCreationError, NoAddressMessage)), account)
    ensures r.0.Ok? ==>
      !Blank(address) && address.value !in r.1.addresses &&
      r.1.addresses == account.addresses - {address.value}
    ensures !Blank(address) && client.disassociate(account, address.value).AuthFailure? ==>
      r == (Err(Backend(UserNotAuthorizedError, client.disassociate(account, address.value).message)), account)
    ensures !Blank(address) && client.disassociate(account, address.value).Done? ==>
      var released := client.release(Disassociated(account, address.value), address.value);
      (released.AuthFailure? ==> r.0 == Err(Backend(UserNotAuthorizedError, released.message))) &&
      (released.Done? <==> r.0.Ok?)
  {
    if Blank(address) then (Err(Backend(ResourceCreationError, NoAddressMessage)), account)
    else
      var ip := address.value;
      match client.disassociate(account, ip)
      case AuthFailure(m) => (Err(Backend(UserNotAuthorizedError, m)), account)
      case CallFailed(e) => (Err(e), account)
      case Done =>
        var unassociated := Disassociated(account, ip);
        match client.release(unassociated, ip)
        case AuthFailure(m) => (Err(Backend(UserNotAuthorizedError, m)), unassociated)
        case CallFailed(e) => (Err(e), unassociated)
        case Done => (Ok(()), Account(unassociated.addresses - {ip}))
  }

  /** A blank address is refused whatever EC2 would do. */
  lemma BlankDetachCallsNothing(client1: Ec2Client, client2: Ec2Client, account: Account, address: Option<string>)
    requires Blank(address)
    ensures DetachPublic(client1, account, address) == DetachPublic(client2, account, address)
  {
  }

  /** An address of no-break and ideographic spaces is blank, so it is
      refused before EC2 is called, as an empty one is. */
  lemma UnicodeBlankDetachRefused(client: Ec2Client, account: Account)
    ensures DetachPublic(client, account, Some("\U{A0}\U{3000}")) ==
      (Err(Backend(ResourceCreationError, NoAddressMessage)), account)
    ensures DetachPublic(client, account, Some("")) == DetachPublic(client, account, Some("\U{A0}\U{3000}"))
  {
    var a := "\U{A0}\U{3000}";
    assert IsUnicodeSpace(a[0]) && IsUnicodeSpace(a[1]);
    assert Blank(Some(a));
  }

  /** The network changes EC2 does not support on a running instance. */
  datatype Unsupported = AttachPrivate | AttachVpc | DetachPrivate | DetachVpc

  function UnsupportedMessage(change: Unsupported): string {
    match change
    case AttachPrivate => "Network \"private\" cannot be attached manually!"
    case AttachVpc => "VPC networks cannot be attached to already running instances!"
    case DetachPrivate => "Network \"private\" cannot be detached manually!"
    case DetachVpc => "VPC networks cannot be detached from already running instances!"
  }

  /** Private and VPC networks are never attached or detached: every such
      request fails with `ResourceCreationError` and leaves the account. */
  function ChangeUnsupported(change: Unsupported, account: Account): (r: (Result<string, Raised>, Account))
    ensures r.1 == account
    ensures r.0.Err? && r.0.error.Backend? && r.0.error.kind == ResourceCreationError
  {
    (Err(Backend(ResourceCreationError, UnsupportedMessage(change))), account)
  }
}

=== FILE: errors.dfy ===
/** The `Backends::Errors` family the adapters raise, and the shape of any
    exception a backend block can raise (the family, an Azure HTTP error, or
    some other Ruby exception). */
module Errors {
  import opened Strings

  datatype ErrorKind =
    | StubError
    | AuthenticationError
    | UserNotAuthorizedError
    | ResourceNotFoundError
    | ResourceNotValidError
    | ResourceCreationError
    | ResourceStateError
    | ServiceUnavailableError
    | IdentifierNotValidError
    | MethodNotImplementedError
    | ResourceActionError

  /** The unqualified Ruby class name of an error kind. */
  function KindName(k: ErrorKind): string {
    match k
    case StubError => "StubError"
    case AuthenticationError => "AuthenticationError"
    case UserNotAuthorizedError => "UserNotAuthorizedError"
    case ResourceNotFoundError => "ResourceNotFoundError"
    case ResourceNotValidError => "ResourceNotValidError"
    case ResourceCreationError => "ResourceCreationError"
    case ResourceStateError => "ResourceStateError"
    case ServiceUnavailableError => "ServiceUnavailableError"
    case IdentifierNotValidError => "IdentifierNotValidError"
    case MethodNotImplementedError => "MethodNotImplementedError"
    case ResourceActionError => "ResourceActionError"
  }

  const Namespace := "Backends::Errors::"

  /** An exception in flight.  `Foreign` is any Ruby exception that is neither
      an Azure HTTP error nor one of the kinds above, identified by its fully
      qualified class name; `standard` says whether it descends from
      `StandardError`, the only exceptions a bare `rescue` catches. */
  datatype Raised =
    | Backend(kind: ErrorKind, message: string)
    | HttpError(status: int, errorType: string, description: string)
    | Foreign(className: string, message: string, standard: bool)
  {
    /** `e.class.name` */
    function ClassName(): string {
      match this
      case Backend(k, _) => Namespace + KindName(k)
      case HttpError(_, _, _) => "Azure::Core::Http::HTTPError"
      case Foreign(n, _, _) => n
    }

    /** `e.message` */
    function Message(): string {
      match this
      case Backend(_, m) => m
      case HttpError(_, t, d) => t + ": " + d
      case Foreign(_, m, _) => m
    }

    /** Whether a bare `rescue => e` catches the exception.  The family's
        errors and Azure's HTTP errors are `StandardError`s. */
    predicate IsStandard() {
      !Foreign? || standard
    }

    /** Whether the exception belongs to the gateway's own error family. */
    predicate IsOwn() {
      StartsWith(ClassName(), Namespace)
    }
  }
}

=== FILE: occi_core.dfy ===
/** The parts of the OCCI category model the backends build: mixins. */
module Occi {
  import opened Wrappers

  const InfrastructureScheme := "http://schemas.ogf.org/occi/infrastructure#"
  const ComputeKindId := "http://schemas.ogf.org/occi/infrastructure#compute"
  const OsTplMixinId := "http://schemas.ogf.org/occi/infrastructure#os_tpl"
  const ResourceTplMixinId := "http://schemas.ogf.org/occi/infrastructure#resource_tpl"

  /** `Occi::Core::Mixin`: attributes and actions are kept as their names. */
  datatype Mixin = Mixin(
    scheme: string,
    term: string,
    title: string,
    attributes: seq<string>,
    depends: seq<string>,
    actions: seq<string>,
    location: string,
    applies: seq<string>)

  /** `i` is the position of the first mixin that depends on `id`. */
  predicate IsFirstRelated(mixins: seq<Mixin>, id: string, i: int) {
    0 <= i < |mixins| && id in mixins[i].depends &&
    forall j :: 0 <= j < i ==> id !in mixins[j].depends
  }

  /** `mixins.get_related_to(id)`, read as the mixins that depend on `id`,
      in their original order. */
  function RelatedTo(mixins: seq<Mixin>, id: string): (r: seq<Mixin>)
    ensures |r| <= |mixins|
    ensures forall m :: m in r <==> m in mixins && id in m.depends
    ensures |r| > 0 ==> exists i :: IsFirstRelated(mixins, id, i) && mixins[i] == r[0]
  {
    if |mixins| == 0 then []
    else if id in mixins[0].depends then
      assert IsFirstRelated(mixins, id, 0);
      [mixins[0]] + RelatedTo(mixins[1..], id)
    else
      var rest := RelatedTo(mixins[1..], id);
      assert forall m :: m in mixins <==> m == mixins[0] || m in mixins[1..];
      if |rest| > 0 then
        var i :| IsFirstRelated(mixins[1..], id, i) && mixins[1..][i] == rest[0];
        assert IsFirstRelated(mixins, id, i + 1);
        rest
      else rest
  }

  predicate IsFirstWithTerm(mixins: seq<Mixin>, term: string, i: int) {
    0 <= i < |mixins| && mixins[i].term == term &&
    forall j :: 0 <= j < i ==> mixins[j].term != term
  }

  /** The first mixin of a collection whose term is `term`. */
  function WithTerm(mixins: seq<Mixin>, term: string): (r: Option<Mixin>)
    ensures r.None? <==> forall i :: 0 <= i < |mixins| ==> mixins[i].term != term
    ensures r.Some? ==> r.value.term == term && exists i :: IsFirstWithTerm(mixins, term, i) && mixins[i] == r.value
  {
    if |mixins| == 0 then None
    else if mixins[0].term == term then
      assert IsFirstWithTerm(mixins, term, 0);
      Some(mixins[0])
    else
      var r := WithTerm(mixins[1..], term);
      if r.Some? then
        var i :| IsFirstWithTerm(mixins[1..], term, i) && mixins[1..][i] == r.value;
        assert IsFirstWithTerm(mixins, term, i + 1);
        r
      else r
  }
}

=== FILE: one_dispatch.dfy ===
/** The OpenNebula backend's operation table and its small pure helpers:
    `check_rc`, `generate_occi_id` and the os_tpl term derived from a
    template name. */
module OneDispatch {
  import opened Wrappers
  import opened Strings
  import opened Seqs
  import ComputeKind

  const ComputeId := "http://schemas.ogf.org/occi/infrastructure#compute"
  const NetworkId := "http://schemas.ogf.org/occi/infrastructure#network"
  const StorageId := "http://schemas.ogf.org/occi/infrastructure#storage"

  /** `OPERATIONS`: kind identifier -> signal or action term -> operation,
      each hash kept in the order it is written (a key written twice in a
      Ruby hash literal keeps its later value). */
  const Operations: seq<(string, seq<(string, string)>)> :=
    [(ComputeId, ComputeOperations), (NetworkId, NetworkOperations), (StorageId, StorageOperations)]

  const ComputeOperations: seq<(string, string)> := [
    ("deploy", "compute_deploy"),
    ("update_state", "compute_update_state"),
    ("delete", "compute_delete"),
    ("start", "compute_start"),
    ("stop", "compute_stop"),
    ("restart", "compute_restart"),
    ("suspend", "compute_suspend")]

  const NetworkOperations: seq<(string, string)> := [
    ("deploy", "network_deploy"),
    ("update_state", "network_update_state"),
    ("delete", "network_delete"),
    ("up", "network_up"),
    ("down", "network_down")]

  const StorageOperations: seq<(string, string)> := [
    ("deploy", "storage_deploy"),
    ("update_state", "storage_update_state"),
    ("delete", "storage_delete"),
    ("online", "storage_online"),
    ("offline", "storage_offline"),
    ("backup", "storage_backup"),
    ("snapshot", "storage_snapshot"),
    ("resize", "storage_resize")]

  const GenericSignals: seq<string> := ["deploy", "update_state", "delete"]
  const ComputeActions: seq<string> := ["start", "stop", "restart", "suspend"]
  const NetworkActions: seq<string> := ["up", "down"]
  const StorageActions: seq<string> := ["online", "offline", "backup", "snapshot", "resize"]

  /** The kind-specific action terms of each kind. */
  function KindActions(kind: string): seq<string> {
    if kind == ComputeId then ComputeActions
    else if kind == NetworkId then NetworkActions
    else if kind == StorageId then StorageActions
    else []
  }

  /** The term of a kind identifier: what follows the `#`. */
  function KindTermOf(kind: string): string {
    if kind == ComputeId then "compute"
    else if kind == NetworkId then "network"
    else if kind == StorageId then "storage"
    else ""
  }

  /** The operation the table names for `signal` on `kind`, if any. */
  function Resolve(kind: string, signal: string): Option<string> {
    match Lookup(Operations, kind)
    case None => None
    case Some(ops) => Lookup(ops, signal)
  }

  /** A per-kind table answers exactly the generic signals and then the
      kind's own actions, each with the operation `<term>_<signal>`. */
  predicate FollowsNamingRule(ops: seq<(string, string)>, term: string, actions: seq<string>) {
    && KeysOf(ops) == GenericSignals + actions
    && forall i :: 0 <= i < |ops| ==> ops[i].1 == term + "_" + ops[i].0
  }

  lemma ComputeOperationsRule()
    ensures FollowsNamingRule(ComputeOperations, "compute", ComputeActions)
  {
    assert "compute_deploy" == "compute" + "_" + "deploy";
    assert "compute_update_state" == "compute" + "_" + "update_state";
    assert "compute_delete" == "compute" + "_" + "delete";
    assert "compute_start" == "compute" + "_" + "start";
    assert "compute_stop" == "compute" + "_" + "stop";
    assert "compute_restart" == "compute" + "_" + "restart";
    assert "compute_suspend" == "compute" + "_" + "suspend";
  }

  lemma NetworkOperationsRule()
    ensures FollowsNamingRule(NetworkOperations, "network", NetworkActions)
  {
    assert "network_deploy" == "network" + "_" + "deploy";
    assert "network_update_state" == "network" + "_" + "update_state";
    assert "network_delete" == "network" + "_" + "delete";
    assert "network_up" == "network" + "_" + "up";
    assert "network_down" == "network" + "_" + "down";
  }

  lemma StorageOperationsRule()
    ensures FollowsNamingRule(StorageOperations, "storage", StorageActions)
  {
    assert "storage_deploy" == "storage" + "_" + "deploy";
    assert "storage_update_state" == "storage" + "_" + "update_state";
    assert "storage_delete" == "storage" + "_" + "delete";
    assert "storage_online" == "storage" + "_" + "online";
    assert "storage_offline" == "storage" + "_" + "offline";
    assert "storage_backup" == "storage" + "_" + "backup";
    assert "storage_snapshot" == "storage" + "_" + "snapshot";
    assert "storage_resize" == "storage" + "_" + "resize";
  }

  /** The three kind identifiers differ in the first character of the term. */
  lemma KindIdsDistinct()
    ensures ComputeId != NetworkId && ComputeId != StorageId && NetworkId != StorageId
  {
    assert ComputeId[43] == 'c' && NetworkId[43] == 'n' && StorageId[43] == 's';
  }

  /** The table has exactly the three infrastructure kinds; each answers the
      three generic signals plus its own actions and nothing else; and every
      operation is named `<kind term>_<signal>`. */
  lemma OperationsNamingRule(kind: string, signal: string)
    ensures KeysOf(Operations) == [ComputeId, NetworkId, StorageId]
    ensures Resolve(kind, signal).Some? <==>
      kind in KeysOf(Operations) && (signal in GenericSignals || signal in KindActions(kind))
    ensures Resolve(kind, signal).Some? ==> Resolve(kind, signal).value == KindTermOf(kind) + "_" + signal
  {
    KindIdsDistinct();
    if kind == ComputeId {
      ComputeOperationsRule();
      LookupLastKey(Operations, kind, 0);
    } else if kind == NetworkId {
      NetworkOperationsRule();
      LookupLastKey(Operations, kind, 1);
    } else if kind == StorageId {
      StorageOperationsRule();
      LookupLastKey(Operations, kind, 2);
    }
  }

  /** Every compute action of the compute kind's state machine has an
      operation `compute_<term>`. */
  lemma ComputeActionsDispatch(a: ComputeKind.Action)
    ensures Resolve(ComputeId, ComputeKind.ActionTerm(a)) == Some("compute_" + ComputeKind.ActionTerm(a))
  {
    var t := ComputeKind.ActionTerm(a);
    assert t in ComputeActions;
    OperationsNamingRule(ComputeId, t);
    assert "compute" + "_" == "compute_";
  }

  /** What an OpenNebula call returns: an `Error` object or anything else. */
  datatype Rc<+T> = RcError(text: string) | RcValue(value: T)

  /** `check_rc`: raises `OCCI::BackendError` exactly for an `Error` object;
      the `Err` carries the message. */
  function CheckRc<T>(rc: Rc<T>): (r: Result<(), string>)
    ensures r.Err? <==> rc.RcError?
    ensures rc.RcError? ==> r.error == "Error message from OpenNebula: " + rc.text
  {
    match rc
    case RcError(t) => Err("Error message from OpenNebula: " + t)
    case RcValue(_) => Ok(())
  }

  /** The `kind` argument of `generate_occi_id`: a Kind object or a string. */
  datatype KindRef = KindObject(scheme: string, term: string) | KindString(id: string)

  function KindIdOf(k: KindRef): string {
    match k
    case KindObject(scheme, term) => ComputeKind.TypeIdentifier(scheme, term)
    case KindString(id) => id
  }

  /** `generate_occi_id`: a name-based UUID over `"<kind>:<seed>"`; `uuid5`
      stands for `UUIDTools::UUID.sha1_create` in the DNS namespace. */
  function GenerateOcciId(uuid5: string -> string, kind: KindRef, seed: string): string {
    uuid5(KindIdOf(kind) + ":" + seed)
  }

  /** Passing a Kind gives the same id as passing its type identifier, and
      for a fixed kind different seeds hash different names. */
  lemma GenerateOcciIdProperties(uuid5: string -> string, scheme: string, term: string, seed1: string, seed2: string)
    ensures GenerateOcciId(uuid5, KindObject(scheme, term), seed1) ==
            GenerateOcciId(uuid5, KindString(scheme + term), seed1)
    ensures seed1 != seed2 ==>
      KindIdOf(KindString(scheme + term)) + ":" + seed1 != KindIdOf(KindString(scheme + term)) + ":" + seed2
  {
    var p := scheme + term + ":";
    assert (p + seed1)[|p|..] == seed1;
    assert (p + seed2)[|p|..] == seed2;
  }

  /** One character of `gsub(/\W/, '_')`. */
  function WordOrUnderscore(c: char): char {
    if IsWordChar(c) then c else '_'
  }

  function ReplaceNonWord(s: string): (r: string)
    ensures |r| == |s|
    ensures forall i :: 0 <= i < |s| ==> r[i] == WordOrUnderscore(s[i])
  {
    if |s| == 0 then [] else [WordOrUnderscore(s[0])] + ReplaceNonWord(s[1..])
  }

  /** The os_tpl term registered for an OpenNebula template name:
      `downcase`, then `chomp`, then every non-word character to `_`.  The
      term consists of lower-case word characters only. */
  function TemplateTerm(name: string): (r: string)
    ensures forall i :: 0 <= i < |r| ==> IsWordChar(r[i]) && !IsUpper(r[i])
  {
    ReplaceNonWord(Chomp(Downcase(name)))
  }

  /** At most a two-character line ending is dropped from the end of the
      term, and nothing when the name ends in neither `\n` nor `\r`. */
  lemma TemplateTermLength(name: string)
    ensures |name| - 2 <= |TemplateTerm(name)| <= |name|
    ensures !EndsWith(name, "\n") && !EndsWith(name, "\r") ==> |TemplateTerm(name)| == |name|
  {
    DowncaseKeepsLineEnd(name);
  }

  /** Lower-casing neither creates nor removes a trailing `\n` or `\r`. */
  lemma DowncaseKeepsLineEnd(name: string)
    ensures EndsWith(Downcase(name), "\n") <==> EndsWith(name, "\n")
    ensures EndsWith(Downcase(name), "\r") <==> EndsWith(name, "\r")
  {
    var d := Downcase(name);
    if |name| > 0 {
      assert name[|name| - 1..] == [name[|name| - 1]];
      assert d[|d| - 1..] == [d[|d| - 1]];
    }
  }

  /** Position by position the term is the lower-cased name with non-word
      characters replaced. */
  lemma TemplateTermPositions(name: string)
    ensures forall i :: 0 <= i < |TemplateTerm(name)| ==>
      TemplateTerm(name)[i] == WordOrUnderscore(ToLower(name[i]))
  {
    var d := Downcase(name);
    var c := Chomp(d);
    assert c == d[..|c|];
    assert forall i :: 0 <= i < |c| ==> c[i] == ToLower(name[i]);
  }

  /** A registered term is already a term: deriving it again changes nothing. */
  lemma TemplateTermIdempotent(name: string)
    ensures TemplateTerm(TemplateTerm(name)) == TemplateTerm(name)
  {
    var t := TemplateTerm(name);
    DowncaseOfLower(t);
    if |t| > 0 {
      assert IsWordChar(t[|t| - 1]);
    }
    ChompWithoutLineEnd(t);
    ReplaceNonWordOfWord(t);
  }

  lemma DowncaseOfLower(s: string)
    requires forall i :: 0 <= i < |s| ==> !IsUpper(s[i])
    ensures Downcase(s) == s
  {
  }

  lemma ReplaceNonWordOfWord(s: string)
    requires forall i :: 0 <= i < |s| ==> IsWordChar(s[i])
    ensures ReplaceNonWord(s) == s
  {
  }
}

=== FILE: one_storage.dfy ===
/** The OpenNebula storage adapter: datastore selection, action enabling,
    the identifier set and the outcome of `create`.  The OpenNebula pools,
    images and datastores are given as values and functions. */
module OneStorage {
  import opened Wrappers

  /** The two adapter errors `create` can raise. */
  datatype StorageError = EntityStateError(message: string) | EntityCreateError(message: string)

  const NoDatastoreMessage := "Storage spanning requested zones cannot be created"

  /** A datastore of the pool: its id, its `type_str` and the ids listed
      under `CLUSTERS/ID`, in document order. */
  datatype Datastore = Datastore(id: string, typeStr: string, clusters: seq<string>)

  /** An image of the pool as far as the adapter reads it. */
  datatype Image = Image(id: string)

  /** A storage instance: its id, its attributes and its enabled actions. */
  datatype Storage = Storage(id: string, attributes: map<string, string>, actions: set<string>)

  /** The zones a new storage must span: its availability-zone terms, or the
      default cluster when it names none. */
  function RequestedZones(zoneTerms: seq<string>, defaultCluster: string): (r: seq<string>)
    ensures |r| > 0
    ensures zoneTerms != [] ==> r == zoneTerms
    ensures zoneTerms == [] ==> r == [defaultCluster]
  {
    if zoneTerms == [] then [defaultCluster] else zoneTerms
  }

  /** A datastore can hold the storage when it is an image datastore and
      every requested zone is one of its clusters (the array difference
      `azs - clusters` is empty). */
  predicate Qualifies(ds: Datastore, zones: seq<string>) {
    ds.typeStr == "IMAGE" && forall z :: z in zones ==> z in ds.clusters
  }

  predicate IsFirstQualifying(pool: seq<Datastore>, zones: seq<string>, i: int) {
    0 <= i < |pool| && Qualifies(pool[i], zones) &&
    forall j :: 0 <= j < i ==> !Qualifies(pool[j], zones)
  }

  /** The first qualifying datastore of the pool, by position. */
  function Detect(pool: seq<Datastore>, zones: seq<string>): (r: Option<nat>)
    ensures r.None? <==> forall j :: 0 <= j < |pool| ==> !Qualifies(pool[j], zones)
    ensures r.Some? ==> IsFirstQualifying(pool, zones, r.value)
  {
    if |pool| == 0 then None
    else if Qualifies(pool[0], zones) then Some(0)
    else match Detect(pool[1..], zones)
      case None => None
      case Some(i) => Some(i + 1)
  }

  /** `candidate_datastore`: the id of the first image datastore spanning
      every requested zone. */
  function CandidateDatastore(pool: seq<Datastore>, zoneTerms: seq<string>, defaultCluster: string): (r: Result<string, StorageError>)
    ensures r.Err? <==>
      forall j :: 0 <= j < |pool| ==> !Qualifies(pool[j], RequestedZones(zoneTerms, defaultCluster))
    ensures r.Err? ==> r.error == EntityStateError(NoDatastoreMessage)
    ensures r.Ok? ==>
      exists i :: IsFirstQualifying(pool, RequestedZones(zoneTerms, defaultCluster), i) && pool[i].id == r.value
  {
    match Detect(pool, RequestedZones(zoneTerms, defaultCluster))
    case None => Err(EntityStateError(NoDatastoreMessage))
    case Some(i) => Ok(pool[i].id)
  }

  /** Qualification only looks at which zones are requested, so the order
      (and repetition) of the requested zones does not change the choice. */
  lemma {:induction false} DetectIgnoresZoneOrder(pool: seq<Datastore>, zones1: seq<string>, zones2: seq<string>)
    requires forall z :: z in zones1 <==> z in zones2
    ensures Detect(pool, zones1) == Detect(pool, zones2)
    decreases |pool|
  {
    if |pool| > 0 {
      assert Qualifies(pool[0], zones1) == Qualifies(pool[0], zones2);
      DetectIgnoresZoneOrder(pool[1..], zones1, zones2);
    }
  }

  lemma CandidateIgnoresZoneOrder(pool: seq<Datastore>, terms1: seq<string>, terms2: seq<string>, defaultCluster: string)
    requires forall z :: z in terms1 <==> z in terms2
    ensures CandidateDatastore(pool, terms1, defaultCluster) == CandidateDatastore(pool, terms2, defaultCluster)
  {
    if terms1 != [] {
      assert terms1[0] in terms2;
    }
    if terms2 != [] {
      assert terms2[0] in terms1;
    }
    DetectIgnoresZoneOrder(pool, RequestedZones(terms1, defaultCluster), RequestedZones(terms2, defaultCluster));
  }

  const StateAttribute := "occi.storage.state"

  /** `enable_actions!`: the online actions are enabled when, and only when,
      the storage is online; nothing else about the storage changes. */
  function EnableActions(storage: Storage, onlineActions: seq<string>): (r: Storage)
    ensures r.id == storage.id && r.attributes == storage.attributes
    ensures storage.actions <= r.actions
    ensures forall a :: a in r.actions && a !in storage.actions ==> a in onlineActions
    ensures (StateAttribute in storage.attributes && storage.attributes[StateAttribute] == "online") ==>
      forall a :: a in onlineActions ==> a in r.actions
    ensures !(StateAttribute in storage.attributes && storage.attributes[StateAttribute] == "online") ==>
      r == storage
  {
    if StateAttribute in storage.attributes && storage.attributes[StateAttribute] == "online" then
      storage.(actions := storage.actions + set a | a in onlineActions)
    else
      storage
  }

  /** Enabling the actions a second time changes nothing. */
  lemma EnableActionsIdempotent(storage: Storage, onlineActions: seq<string>)
    ensures EnableActions(EnableActions(storage, onlineActions), onlineActions) == EnableActions(storage, onlineActions)
  {
  }

  /** `identifiers`: the set of the pool's image ids. */
  function Identifiers(pool: seq<Image>): (r: set<string>)
    ensures forall id :: id in r <==> exists i :: 0 <= i < |pool| && pool[i].id == id
    ensures |r| <= |pool|
  {
    if |pool| == 0 then {}
    else {pool[0].id} + Identifiers(pool[1..])
  }

  /** An OpenNebula call's outcome: a value or an error message. */
  datatype Outcome<+T> = Success(value: T) | Failure(message: string)

  /** `create`: pick the datastore, allocate the rendered template in it,
      read the image back and answer its id.  `allocate` and `info` stand
      for the image calls; each failure raises the error its wrapper names. */
  function Create(
    pool: seq<Datastore>, zoneTerms: seq<string>, defaultCluster: string, template: string,
    allocate: (string, string) -> Outcome<string>, info: string -> Outcome<()>): (r: Result<string, StorageError>)
    ensures CandidateDatastore(pool, zoneTerms, defaultCluster).Err? ==>
      r == Err(EntityStateError(NoDatastoreMessage))
    ensures r.Ok? <==>
      CandidateDatastore(pool, zoneTerms, defaultCluster).Ok? &&
      allocate(template, CandidateDatastore(pool, zoneTerms, defaultCluster).value).Success? &&
      info(allocate(template, CandidateDatastore(pool, zoneTerms, defaultCluster).value).value).Success?
    ensures r.Ok? ==> r == Ok(allocate(template, CandidateDatastore(pool, zoneTerms, defaultCluster).value).value)
    ensures r.Err? && r.error.EntityCreateError? ==>
      allocate(template, CandidateDatastore(pool, zoneTerms, defaultCluster).value).Failure?
    ensures (CandidateDatastore(pool, zoneTerms, defaultCluster).Ok? &&
             allocate(template, CandidateDatastore(pool, zoneTerms, defaultCluster).value).Failure?) ==>
      r == Err(EntityCreateError(allocate(template, CandidateDatastore(pool, zoneTerms, defaultCluster).value).message))
    ensures (CandidateDatastore(pool, zoneTerms, defaultCluster).Ok? &&
             allocate(template, CandidateDatastore(pool, zoneTerms, defaultCluster).value).Success? &&
             info(allocate(template, CandidateDatastore(pool, zoneTerms, defaultCluster).value).value).Failure?) ==>
      r == Err(EntityStateError(info(allocate(template, CandidateDatastore(pool, zoneTerms, defaultCluster).value).value).message))
  {
    match CandidateDatastore(pool, zoneTerms, defaultCluster)
    case Err(e) => Err(e)
    case Ok(dsId) =>
      match allocate(template, dsId)
      case Failure(m) => Err(EntityCreateError(m))
      case Success(id) =>
        match info(id)
        case Failure(m) => Err(EntityStateError(m))
        case Success(_) => Ok(id)
  }
}

=== FILE: seqs.dfy ===
/** Searching a sequence for its first element with a property. */
module Seqs {
  import opened Wrappers

  predicate IsFirst<T>(xs: seq<T>, p: T -> bool, i: int) {
    0 <= i < |xs| && p(xs[i]) && forall j :: 0 <= j < i ==> !p(xs[j])
  }

  /** The position of the first element satisfying `p` (Ruby's `detect`
      and `select { }.first`). */
  function FindFirst<T>(xs: seq<T>, p: T -> bool): (r: Option<nat>)
    ensures r.None? <==> forall i :: 0 <= i < |xs| ==> !p(xs[i])
    ensures r.Some? ==> IsFirst(xs, p, r.value)
  {
    if |xs| == 0 then None
    else if p(xs[0]) then Some(0)
    else match FindFirst(xs[1..], p)
      case None => None
      case Some(i) => Some(i + 1)
  }

  /** The keys of an association list, in order. */
  function KeysOf<K, V>(entries: seq<(K, V)>): (r: seq<K>)
    ensures |r| == |entries|
    ensures forall i :: 0 <= i < |entries| ==> r[i] == entries[i].0
  {
    seq(|entries|, i requires 0 <= i < |entries| => entries[i].0)
  }

  /** `i` is the last entry with key `key`. */
  predicate IsLastKey<K(==), V>(entries: seq<(K, V)>, key: K, i: int) {
    0 <= i < |entries| && entries[i].0 == key && forall j :: i < j < |entries| ==> entries[j].0 != key
  }

  /** The position of the last entry with key `key`. */
  function LastKey<K(==), V>(entries: seq<(K, V)>, key: K): (r: Option<nat>)
    ensures r.None? <==> key !in KeysOf(entries)
    ensures r.Some? ==> IsLastKey(entries, key, r.value)
  {
    if |entries| == 0 then None
    else
      var n := |entries| - 1;
      if entries[n].0 == key then
        assert KeysOf(entries)[n] == key;
        Some(n)
      else
        var front := entries[..n];
        assert forall i :: 0 <= i < n ==> KeysOf(front)[i] == KeysOf(entries)[i];
        assert key in KeysOf(entries) ==> key in KeysOf(front) by {
          if key in KeysOf(entries) {
            var i :| 0 <= i < |entries| && KeysOf(entries)[i] == key;
            assert i < n && KeysOf(front)[i] == key;
          }
        }
        LastKey(front, key)
  }

  /** Looking a key up in a hash built entry by entry, as `Hash#[]` does
      after a series of `h[k] = v`: a repeated key keeps the value it was
      given last. */
  function Lookup<K(==), V>(entries: seq<(K, V)>, key: K): (r: Option<V>)
    ensures r.None? <==> key !in KeysOf(entries)
    ensures r.Some? ==> exists i :: IsLastKey(entries, key, i) && r == Some(entries[i].1)
  {
    match LastKey(entries, key)
    case None => None
    case Some(i) => Some(entries[i].1)
  }

  /** The last entry with a key is the one `Lookup` answers with. */
  lemma LookupLastKey<K, V>(entries: seq<(K, V)>, key: K, i: int)
    requires IsLastKey(entries, key, i)
    ensures Lookup(entries, key) == Some(entries[i].1)
  {
    var j := LastKey(entries, key).value;
    assert KeysOf(entries)[i] == key;
    assert j == i;
  }
}

=== FILE: server.dfy ===
/** The routing rules of the OCCI HTTP server: the server uri, GET over
    collections and instances, POST for actions and creation, PUT, and the
    pruning of the response collection. */
module Server {
  import opened Wrappers
  import opened Strings
  import opened Seqs

  /** `self.uri`: the configured location without one trailing `/`, and
      `:port` after it when a port is configured. */
  function Uri(location: string, port: Option<string>): (r: string)
    ensures port.None? ==> if EndsWith(location, "/") then location == r + "/" else r == location
    ensures port.Some? ==>
      |r| > |port.value| && r[|r| - |port.value| - 1..] == ":" + port.value &&
      r[..|r| - |port.value| - 1] == ChompChar(location, '/')
  {
    var base := ChompChar(location, '/');
    match port
    case None => base
    case Some(p) =>
      assert (base + ":" + p)[..|base|] == base;
      assert (base + ":" + p)[|base|..] == ":" + p;
      base + ":" + p
  }

  /** A configured location with or without one trailing `/` gives the
      same uri. */
  lemma UriIgnoresTrailingSlash(location: string, port: Option<string>)
    requires !EndsWith(location, "/")
    ensures Uri(location + "/", port) == Uri(location, port)
  {
    assert (location + "/")[..|location|] == location;
  }

  /** Whether a kind's entities are resources, links, or of some other
      entity class (the root `Entity` kind, say), which neither entry of a
      collection takes. */
  datatype EntityType = ResourceEntity | LinkEntity | OtherEntity

  /** The collection entry a kind's entities are filed under, if any. */
  function EntryOf(t: EntityType): Option<string> {
    match t
    case ResourceEntity => Some("resources")
    case LinkEntity => Some("links")
    case OtherEntity => None
  }

  /** An entity as the router sees it: its id and its location path. */
  datatype Entity = Entity(id: string, location: string)

  /** A registered kind: its identifier, its location path, the type and
      list of its entities, and the identifiers of its actions. */
  datatype Kind = Kind(typeIdentifier: string, location: string, entityType: EntityType,
                       entities: seq<Entity>, actions: seq<string>)

  predicate IsFirstAt(kinds: seq<Kind>, location: string, i: int) {
    0 <= i < |kinds| && kinds[i].location == location &&
    forall j :: 0 <= j < i ==> kinds[j].location != location
  }

  /** The kind registered at a location: the first one whose location is
      exactly the given path. */
  function GetByLocation(kinds: seq<Kind>, location: string): (r: Option<Kind>)
    ensures r.None? <==> forall i :: 0 <= i < |kinds| ==> kinds[i].location != location
    ensures r.Some? ==> exists i :: IsFirstAt(kinds, location, i) && kinds[i] == r.value
  {
    if |kinds| == 0 then None
    else if kinds[0].location == location then Some(kinds[0])
    else
      var r := GetByLocation(kinds[1..], location);
      if r.Some? then
        var i :| IsFirstAt(kinds[1..], location, i) && kinds[1..][i] == r.value;
        assert IsFirstAt(kinds, location, i + 1);
        r
      else r
  }

  /** The payload of one collection entry. */
  datatype Payload = Categories(identifiers: seq<string>) | Entities(items: seq<Entity>)

  function Size(p: Payload): nat {
    match p
    case Categories(ids) => |ids|
    case Entities(items) => |items|
  }

  type Collection = map<string, Payload>

  const EntryNames: set<string> := {"kinds", "mixins", "actions", "resources", "links"}

  /** The collection every request starts from: five empty entries. */
  function NewCollection(): (r: Collection)
    ensures r.Keys == EntryNames
    ensures forall k :: k in r ==> Size(r[k]) == 0
  {
    map["kinds" := Categories([]), "mixins" := Categories([]), "actions" := Categories([]),
        "resources" := Entities([]), "links" := Entities([])]
  }

  /** The `after` hook's `delete_if`: keep exactly the non-empty entries. */
  function Prune(c: Collection): (r: Collection)
    ensures forall k :: k in r <==> k in c && Size(c[k]) > 0
    ensures forall k :: k in r ==> r[k] == c[k]
  {
    map k | k in c && Size(c[k]) > 0 :: c[k]
  }

  lemma PruneIdempotent(c: Collection)
    ensures Prune(Prune(c)) == Prune(c)
  {
  }

  /** A request that fills nothing renders an empty collection. */
  lemma PruneNewCollection()
    ensures Prune(NewCollection()) == map[]
  {
    var r := Prune(NewCollection());
    assert forall k :: k !in r;
  }

  /** The response as rendered: a status, the pruned collection and the
      uri-list. */
  datatype Response = Response(status: int, collection: Collection, locations: seq<string>)

  /** A request that does not end with a response: `error 404` halts, and a
      method called on `nil` raises. */
  datatype Failure = Halt(status: int) | Crash(className: string)

  const NilReceiver := Crash("NoMethodError")

  function After(status: int, collection: Collection, locations: seq<string>): (r: Response)
    ensures r.status == status && r.locations == locations
    ensures forall k :: k in r.collection ==> Size(r.collection[k]) > 0
    ensures forall k :: k in collection && Size(collection[k]) > 0 ==> k in r.collection && r.collection[k] == collection[k]
  {
    Response(status, Prune(collection), locations)
  }

  /** An entity of some kind of the given type. */
  predicate Listed(kinds: seq<Kind>, t: EntityType, e: Entity) {
    exists i :: 0 <= i < |kinds| && kinds[i].entityType == t && e in kinds[i].entities
  }

  function Locations(uri: string, entities: seq<Entity>): (r: seq<string>)
    ensures |r| == |entities|
    ensures forall j :: 0 <= j < |r| ==> r[j] == uri + entities[j].location
  {
    seq(|entities|, j requires 0 <= j < |entities| => uri + entities[j].location)
  }

  /** The entities of a sequence of kinds, kind after kind, whatever their
      type. */
  function AllEntities(kinds: seq<Kind>): seq<Entity>
    decreases |kinds|
  {
    if |kinds| == 0 then [] else AllEntities(kinds[..|kinds| - 1]) + kinds[|kinds| - 1].entities
  }

  /** The entities of every kind of type `t`, concatenated in kind order,
      repeats kept, as the listing loop's `concat` builds them. */
  function EntitiesOfType(kinds: seq<Kind>, t: EntityType): seq<Entity>
    decreases |kinds|
  {
    if |kinds| == 0 then []
    else
      var k := kinds[|kinds| - 1];
      EntitiesOfType(kinds[..|kinds| - 1], t) + (if k.entityType == t then k.entities else [])
  }

  lemma LocationsAppend(uri: string, a: seq<Entity>, b: seq<Entity>)
    ensures Locations(uri, a + b) == Locations(uri, a) + Locations(uri, b)
  {
    var l := Locations(uri, a + b);
    var r := Locations(uri, a) + Locations(uri, b);
    assert |l| == |r|;
    forall j | 0 <= j < |l| ensures l[j] == r[j] {
      if j < |a| {
        assert (a + b)[j] == a[j];
      } else {
        assert (a + b)[j] == b[j - |a|];
      }
    }
  }

  /** Listing one more kind adds exactly that kind's entities of the type. */
  lemma ListedSnoc(kinds: seq<Kind>, t: EntityType)
    requires |kinds| > 0
    ensures var front := kinds[..|kinds| - 1];
      var k := kinds[|kinds| - 1];
      forall e :: Listed(kinds, t, e) <==> Listed(front, t, e) || (k.entityType == t && e in k.entities)
  {
    var front := kinds[..|kinds| - 1];
    var k := kinds[|kinds| - 1];
    forall e | Listed(kinds, t, e) ensures Listed(front, t, e) || (k.entityType == t && e in k.entities) {
      var i :| 0 <= i < |kinds| && kinds[i].entityType == t && e in kinds[i].entities;
      if i < |front| {
        assert front[i] == kinds[i];
      }
    }
    forall e | Listed(front, t, e) ensures Listed(kinds, t, e) {
      var i :| 0 <= i < |front| && front[i].entityType == t && e in front[i].entities;
      assert kinds[i] == front[i];
    }
  }

  /** The listing loop of `get '*'` over a sequence of kinds: the
      resources, the links, and the uri of every entity of every kind, in
      kind order, whatever the kind's type. */
  function {:induction false} ListKinds(kinds: seq<Kind>, uri: string): (r: (seq<Entity>, seq<Entity>, seq<string>))
    ensures forall e :: e in r.0 <==> Listed(kinds, ResourceEntity, e)
    ensures forall e :: e in r.1 <==> Listed(kinds, LinkEntity, e)
    ensures r.0 == EntitiesOfType(kinds, ResourceEntity)
    ensures r.1 == EntitiesOfType(kinds, LinkEntity)
    ensures r.2 == Locations(uri, AllEntities(kinds))
    decreases |kinds|
  {
    if |kinds| == 0 then ([], [], [])
    else
      var front := kinds[..|kinds| - 1];
      var k := kinds[|kinds| - 1];
      var rest := ListKinds(front, uri);
      var res' := if k.entityType == ResourceEntity then rest.0 + k.entities else rest.0;
      var links' := if k.entityType == LinkEntity then rest.1 + k.entities else rest.1;
      ListedSnoc(kinds, ResourceEntity);
      ListedSnoc(kinds, LinkEntity);
      LocationsAppend(uri, AllEntities(front), k.entities);
      assert rest.0 + [] == rest.0 && rest.1 + [] == rest.1;
      (res', links', rest.2 + Locations(uri, k.entities))
  }

  /** `e` is listed under the entry `key` of the collection. */
  predicate InEntry(c: Collection, key: string, e: Entity) {
    key in c && c[key].Entities? && e in c[key].items
  }

  /** The rendered collection of a request that filled one entry. */
  lemma OneEntryRendered(key: string, items: seq<Entity>)
    requires key in EntryNames
    ensures var c := After(200, NewCollection()[key := Entities(items)], []).collection;
      c.Keys <= {key} && forall e :: InEntry(c, key, e) <==> e in items
  {
    var c := After(200, NewCollection()[key := Entities(items)], []).collection;
    forall k | k in c ensures k == key {
      assert Size(NewCollection()[key := Entities(items)][k]) > 0;
    }
  }

  /** `path.end_with?('/')`: the path names a collection. */
  predicate IsCollectionPath(path: string) {
    |path| > 0 && path[|path| - 1] == '/'
  }

  /** The kinds a collection path lists: every kind for `/`, else the kind
      registered at the path, if any. */
  function ListedKinds(kinds: seq<Kind>, path: string): (r: Option<seq<Kind>>)
    ensures path == "/" ==> r == Some(kinds)
    ensures path != "/" ==> (r.None? <==> GetByLocation(kinds, path).None?)
    ensures path != "/" && r.Some? ==> r.value == [GetByLocation(kinds, path).value]
  {
    if path == "/" then Some(kinds)
    else match GetByLocation(kinds, path)
      case None => None
      case Some(k) => Some([k])
  }

  /** `get '*'` on a path ending in `/`: `/` lists every kind, any other
      path the kind registered there; an unknown path dereferences `nil`. */
  function ListCollection(kinds: seq<Kind>, uri: string, path: string): (r: Result<Response, Failure>)
    requires IsCollectionPath(path)
    ensures r.Err? <==> ListedKinds(kinds, path).None?
    ensures r.Err? ==> r.error == NilReceiver
    ensures r.Ok? ==> r.value.status == 200
  {
    match ListedKinds(kinds, path)
    case None => Err(NilReceiver)
    case Some(ks) =>
      var found := ListKinds(ks, uri);
      Ok(After(200, NewCollection()["resources" := Entities(found.0)]["links" := Entities(found.1)], found.2))
  }

  /** A listed collection holds exactly the entities of the listed kinds,
      resources and links apart, and its uri-list is the server uri before
      the location of every entity of the listed kinds, in order. */
  lemma ListCollectionContents(kinds: seq<Kind>, uri: string, path: string)
    requires IsCollectionPath(path) && ListedKinds(kinds, path).Some?
    ensures var listed := ListedKinds(kinds, path).value;
      var r := ListCollection(kinds, uri, path).value;
      var c := r.collection;
      c.Keys <= {"resources", "links"} &&
      (forall e :: Listed(listed, ResourceEntity, e) <==> InEntry(c, "resources", e)) &&
      (forall e :: Listed(listed, LinkEntity, e) <==> InEntry(c, "links", e)) &&
      ("resources" in c <==> |EntitiesOfType(listed, ResourceEntity)| > 0) &&
      ("resources" in c ==> c["resources"] == Entities(EntitiesOfType(listed, ResourceEntity))) &&
      ("links" in c <==> |EntitiesOfType(listed, LinkEntity)| > 0) &&
      ("links" in c ==> c["links"] == Entities(EntitiesOfType(listed, LinkEntity))) &&
      r.locations == Locations(uri, AllEntities(listed)) &&
      forall j :: 0 <= j < |r.locations| ==> StartsWith(r.locations[j], uri)
  {
    var found := ListKinds(ListedKinds(kinds, path).value, uri);
    forall j | 0 <= j < |found.2| ensures StartsWith(found.2[j], uri) {
      var e := AllEntities(ListedKinds(kinds, path).value)[j];
      assert (uri + e.location)[..|uri|] == uri;
    }
  }

  /** The entities with the given id, in order. */
  function WithId(entities: seq<Entity>, id: string): (r: seq<Entity>)
    ensures forall e :: e in r <==> e in entities && e.id == id
    ensures |r| <= |entities|
  {
    if |entities| == 0 then []
    else (if entities[0].id == id then [entities[0]] else []) + WithId(entities[1..], id)
  }

  /** `select` keeps order and repeats: selecting from two runs of entities
      selects from each in turn.  With `WithIdOne` this fixes `WithId` on
      every sequence. */
  lemma {:induction false} WithIdAppend(a: seq<Entity>, b: seq<Entity>, id: string)
    ensures WithId(a + b, id) == WithId(a, id) + WithId(b, id)
    decreases |a|
  {
    if |a| == 0 {
      assert a + b == b;
    } else {
      assert (a + b)[0] == a[0];
      assert (a + b)[1..] == a[1..] + b;
      WithIdAppend(a[1..], b, id);
    }
  }

  /** One entity is selected exactly when it has the id. */
  lemma WithIdOne(e: Entity, id: string)
    ensures WithId([e], id) == (if e.id == id then [e] else [])
  {
    assert [e][1..] == [];
  }

  /** The kind location and the id an instance path names: split at the last
      `/`, the part before it plus `/` is the kind location. */
  function SplitInstancePath(path: string): (r: (string, string))
    ensures NoChar(r.1, '/')
    ensures !NoChar(path, '/') ==> r.0 + r.1 == path
    ensures EndsWith(r.0, "/")
  {
    var (before, after) := RPartition(path, '/');
    (before + "/", after)
  }

  /** Whenever the path has a `/` and does not end in one, the split gives
      back the path, and the id is its non-empty last segment. */
  lemma InstancePathParts(path: string)
    requires !NoChar(path, '/') && !IsCollectionPath(path)
    ensures SplitInstancePath(path).0 + SplitInstancePath(path).1 == path
    ensures |SplitInstancePath(path).1| > 0
    ensures LastField(path, '/') == Some(SplitInstancePath(path).1)
  {
    var (before, after) := RPartition(path, '/');
    assert path == before + ['/'] + after;
    LastFieldAfterSeparator(before, after, '/');
  }

  /** `get '*'` on an instance path: 404 when no kind is registered at the
      kind location, otherwise the entities of that kind whose id is the
      last segment, filed as resources or links by the kind's entity type,
      and nowhere for a kind of any other type. */
  function ShowInstance(kinds: seq<Kind>, path: string): (r: Result<Response, Failure>)
    ensures r.Err? <==> GetByLocation(kinds, SplitInstancePath(path).0).None?
    ensures r.Err? ==> r.error == Halt(404)
    ensures r.Ok? ==> r.value.status == 200 && r.value.locations == []
  {
    var parts := SplitInstancePath(path);
    match GetByLocation(kinds, parts.0)
    case None => Err(Halt(404))
    case Some(k) =>
      match EntryOf(k.entityType)
      case None => Ok(After(200, NewCollection(), []))
      case Some(entry) => Ok(After(200, NewCollection()[entry := Entities(WithId(k.entities, parts.1))], []))
  }

  /** A shown instance is every entity of the kind whose id is the path's
      last segment, filed under resources for a resource kind and under
      links for a link kind; a kind of any other type renders an empty
      collection. */
  lemma ShowInstanceContents(kinds: seq<Kind>, path: string)
    requires GetByLocation(kinds, SplitInstancePath(path).0).Some?
    ensures var k := GetByLocation(kinds, SplitInstancePath(path).0).value;
      var c := ShowInstance(kinds, path).value.collection;
      (k.entityType == ResourceEntity ==>
        c.Keys <= {"resources"} &&
        forall e :: e in k.entities && e.id == SplitInstancePath(path).1 <==> InEntry(c, "resources", e)) &&
      (k.entityType == LinkEntity ==>
        c.Keys <= {"links"} &&
        forall e :: e in k.entities && e.id == SplitInstancePath(path).1 <==> InEntry(c, "links", e)) &&
      (k.entityType == OtherEntity ==> c == map[])
  {
    var k := GetByLocation(kinds, SplitInstancePath(path).0).value;
    match EntryOf(k.entityType)
    case None => PruneNewCollection();
    case Some(entry) => OneEntryRendered(entry, WithId(k.entities, SplitInstancePath(path).1));
  }

  /** `get '*'`: a path ending in `/` lists a collection, any other path
      shows an instance. */
  function Get(kinds: seq<Kind>, uri: string, path: string): (r: Result<Response, Failure>)
    ensures IsCollectionPath(path) ==> (r.Err? ==> r.error == NilReceiver)
    ensures IsCollectionPath(path) ==> (path == "/" ==> r.Ok?)
    ensures !IsCollectionPath(path) ==> (r.Err? <==> GetByLocation(kinds, SplitInstancePath(path).0).None?)
    ensures !IsCollectionPath(path) ==> (r.Err? ==> r.error == Halt(404)) && (r.Ok? ==> r.value.locations == [])
    ensures r.Ok? ==> r.value.status == 200
  {
    if IsCollectionPath(path) then ListCollection(kinds, uri, path) else ShowInstance(kinds, path)
  }

  predicate NamesAction(action: string, term: string) {
    LastField(action, '#') == Some(term)
  }

  predicate IsFirstAction(actions: seq<string>, term: string, i: int) {
    0 <= i < |actions| && NamesAction(actions[i], term) &&
    forall j :: 0 <= j < i ==> !NamesAction(actions[j], term)
  }

  /** The action of a kind a request's `action` term names: the first
      action identifier whose part after the last `#` is the term. */
  function ResolveAction(actions: seq<string>, term: string): (r: Option<string>)
    ensures r.None? <==> forall i :: 0 <= i < |actions| ==> !NamesAction(actions[i], term)
    ensures r.Some? ==> exists i :: IsFirstAction(actions, term, i) && actions[i] == r.value
  {
    match FindFirst(actions, a => NamesAction(a, term))
    case None => None
    case Some(i) =>
      assert IsFirstAction(actions, term, i);
      Some(actions[i])
  }

  /** An action identifier `scheme#term` is found by its term, unless an
      earlier action already ends in the same term. */
  lemma ResolveActionFindsIdentifier(actions: seq<string>, i: nat, scheme: string, term: string)
    requires i < |actions| && actions[i] == scheme + "#" + term
    requires |term| > 0 && NoChar(term, '#')
    requires forall j :: 0 <= j < i ==> !NamesAction(actions[j], term)
    ensures ResolveAction(actions, term) == Some(scheme + "#" + term)
  {
    LastFieldAfterSeparator(scheme, term, '#');
    assert scheme + "#" + term == scheme + ['#'] + term;
    assert IsFirstAction(actions, term, i);
    var r := ResolveAction(actions, term);
    var k :| IsFirstAction(actions, term, k) && actions[k] == r.value;
    assert k == i;
  }

  /** A POST request as the router reads it. */
  datatype PostRequest = PostRequest(
    path: string,
    action: Option<string>,
    requestActions: seq<string>,
    resources: seq<Entity>)

  /** One `delegate_action` call: the action and the entity it is run on. */
  datatype Delegation = Delegation(action: Option<string>, entity: Option<Entity>)

  /** What a POST did: the status, the delegated actions, the deployed
      resources and the uri-list. */
  datatype PostOutcome = PostOutcome(status: int, delegated: seq<Delegation>, deployed: seq<Entity>, locations: seq<string>)

  function FirstWithId(entities: seq<Entity>, id: string): (r: Option<Entity>)
    ensures r.None? <==> forall e :: e in entities ==> e.id != id
    ensures r.Some? ==> r.value in entities && r.value.id == id
  {
    var matching := WithId(entities, id);
    if |matching| == 0 then None
    else
      assert matching[0] in matching;
      Some(matching[0])
  }

  /** The action a POST runs: the first action of the request body, else
      the category's action named by the `action` term.  The category's
      action is its identifier; `nil` when no identifier names the term. */
  function PostAction(req: PostRequest, k: Kind): (r: Option<string>)
    requires req.action.Some?
    ensures |req.requestActions| > 0 ==> r == Some(req.requestActions[0])
    ensures |req.requestActions| == 0 ==>
      (r.None? <==> forall i :: 0 <= i < |k.actions| ==> !NamesAction(k.actions[i], req.action.value))
    ensures |req.requestActions| == 0 && r.Some? ==>
      exists i :: IsFirstAction(k.actions, req.action.value, i) && k.actions[i] == r.value
  {
    if |req.requestActions| > 0 then Some(req.requestActions[0])
    else ResolveAction(k.actions, req.action.value)
  }

  /** `post '*'` with its final `else` parameterised: the status a POST to
      an unknown location ends with when no action is requested. */
  function PostRoute(kinds: seq<Kind>, uri: string, req: PostRequest, unknownStatus: int): Result<PostOutcome, Failure> {
    var category := GetByLocation(kinds, SplitInstancePath(req.path).0);
    if req.action.Some? then
      match category
      case None => Err(NilReceiver)
      case Some(k) =>
        var action := PostAction(req, k);
        if IsCollectionPath(req.path) then
          Ok(PostOutcome(200, seq(|k.entities|, i requires 0 <= i < |k.entities| => Delegation(action, Some(k.entities[i]))), [], []))
        else
          Ok(PostOutcome(200, [Delegation(action, FirstWithId(k.entities, SplitInstancePath(req.path).1))], [], []))
    else
      match category
      case Some(k) =>
        Ok(PostOutcome(if |req.resources| > 0 then 201 else 200, [], req.resources, Locations(uri, req.resources)))
      case None => Ok(PostOutcome(unknownStatus, [], [], []))
  }

  /** `post '*'` as written: a POST to an unknown location sets 404 but
      does not halt, and the final `else` overwrites it with 400. */
  function PostAsWritten(kinds: seq<Kind>, uri: string, req: PostRequest): (r: Result<PostOutcome, Failure>)
    ensures GetByLocation(kinds, SplitInstancePath(req.path).0).None? && req.action.None? ==>
      r == Ok(PostOutcome(400, [], [], []))
  {
    PostRoute(kinds, uri, req, 400)
  }

  /** The input that shows the overwritten 404: no kind is registered at
      `/nothing/`, yet the POST answers 400. */
  lemma PostToUnknownLocationAnswers400()
    ensures PostAsWritten([], "http://localhost:3000", PostRequest("/nothing/", None, [], [])).value.status == 400
  {
  }

  /** `post '*'` as intended: a POST to an unknown location answers 404. */
  function Post(kinds: seq<Kind>, uri: string, req: PostRequest): (r: Result<PostOutcome, Failure>)
    ensures GetByLocation(kinds, SplitInstancePath(req.path).0).None? ==>
      if req.action.Some? then r == Err(NilReceiver) else r == Ok(PostOutcome(404, [], [], []))
    ensures r.Ok? ==> r.value.status in {200, 201, 404}
    ensures r.Ok? && r.value.status == 404 <==> GetByLocation(kinds, SplitInstancePath(req.path).0).None? && req.action.None?
  {
    PostRoute(kinds, uri, req, 404)
  }

  /** The intended POST differs from the written one only in the status of
      a request to an unknown location without an action. */
  lemma PostDiffersOnlyOnUnknownLocation(kinds: seq<Kind>, uri: string, req: PostRequest)
    ensures !(GetByLocation(kinds, SplitInstancePath(req.path).0).None? && req.action.None?) ==>
      Post(kinds, uri, req) == PostAsWritten(kinds, uri, req)
    ensures GetByLocation(kinds, SplitInstancePath(req.path).0).None? && req.action.None? ==>
      PostAsWritten(kinds, uri, req).value.status == 400 && Post(kinds, uri, req).value.status == 404
  {
  }

  /** A POST with an action on a collection path runs the one resolved
      action on every entity of the kind, in order; on an instance path it
      runs it once, on the first entity with the path's id. */
  lemma PostActionDelegation(kinds: seq<Kind>, uri: string, req: PostRequest)
    requires req.action.Some?
    requires GetByLocation(kinds, SplitInstancePath(req.path).0).Some?
    ensures var k := GetByLocation(kinds, SplitInstancePath(req.path).0).value;
      var r := Post(kinds, uri, req);
      r.Ok? && r.value.status == 200 && r.value.deployed == [] &&
      (IsCollectionPath(req.path) ==>
        |r.value.delegated| == |k.entities| &&
        forall i :: 0 <= i < |k.entities| ==> r.value.delegated[i] == Delegation(PostAction(req, k), Some(k.entities[i]))) &&
      (!IsCollectionPath(req.path) ==>
        r.value.delegated == [Delegation(PostAction(req, k), FirstWithId(k.entities, SplitInstancePath(req.path).1))])
  {
  }

  /** Without an action, a POST to a kind deploys each requested resource
      and lists one uri per resource; it answers 201 when there was one. */
  lemma PostCreatesResources(kinds: seq<Kind>, uri: string, req: PostRequest)
    requires req.action.None?
    requires GetByLocation(kinds, SplitInstancePath(req.path).0).Some?
    ensures var r := Post(kinds, uri, req);
      r.Ok? && r.value.deployed == req.resources && r.value.delegated == [] &&
      (r.value.status == 201 <==> |req.resources| > 0) &&
      |r.value.locations| == |req.resources| &&
      forall i :: 0 <= i < |req.resources| ==> r.value.locations[i] == uri + req.resources[i].location
  {
  }

  /** `put '*'`: every PUT answers 501. */
  function Put(path: string): (r: Response)
    ensures r.status == 501
    ensures r.collection == map[]
  {
    After(501, NewCollection(), [])
  }
}

=== FILE: storage_controller.dfy ===
/** The status and body rules of the storage REST controller.  The storage
    backend is given as a record of its answers. */
module StorageController {
  import opened Wrappers
  import opened Strings
  import opened OneStorage

  /** What the backend answers for each call the controller makes. */
  datatype StorageBackend = StorageBackend(
    listIds: seq<string>,
    list: seq<Storage>,
    get: string -> Option<Storage>,
    create: Option<Storage> -> string,
    update: Option<Storage> -> bool,
    delete: string -> bool,
    deleteAll: bool)

  /** A response body: a uri-list, a collection of storages, or a single
      link (`flag: :link_only`). */
  datatype Body = UriList(uris: seq<string>) | Collection(storages: seq<Storage>) | LinkOnly(uri: string)

  datatype Response = Response(status: int, body: Body)

  const Empty := Collection([])

  function StoragePrefix(serverUrl: string): string {
    serverUrl + "/storage/"
  }

  /** `GET /storage/`: a uri-list names one storage location per listed id,
      in list order; any other format answers the listed storages. */
  function Index(backend: StorageBackend, uriList: bool, serverUrl: string): (r: Response)
    ensures r.status == 200
    ensures uriList ==>
      r.body.UriList? && |r.body.uris| == |backend.listIds| &&
      forall i :: 0 <= i < |r.body.uris| ==> r.body.uris[i] == StoragePrefix(serverUrl) + backend.listIds[i]
    ensures !uriList ==> r.body == Collection(backend.list)
  {
    if uriList then
      Response(200, UriList(seq(|backend.listIds|, i requires 0 <= i < |backend.listIds| =>
        StoragePrefix(serverUrl) + backend.listIds[i])))
    else
      Response(200, Collection(backend.list))
  }

  /** Cutting the storage prefix off every uri of the list gives back the
      listed ids. */
  lemma IndexUrisGiveBackIds(backend: StorageBackend, serverUrl: string)
    ensures var uris := Index(backend, true, serverUrl).body.uris;
      forall i :: 0 <= i < |uris| ==>
        StartsWith(uris[i], StoragePrefix(serverUrl)) &&
        uris[i][|StoragePrefix(serverUrl)|..] == backend.listIds[i]
  {
    var uris := Index(backend, true, serverUrl).body.uris;
    forall i | 0 <= i < |uris|
      ensures StartsWith(uris[i], StoragePrefix(serverUrl))
      ensures uris[i][|StoragePrefix(serverUrl)|..] == backend.listIds[i]
    {
      assert uris[i] == StoragePrefix(serverUrl) + backend.listIds[i];
    }
  }

  /** The body and status that answer one fetched storage. */
  function Found(storage: Option<Storage>): (r: Response)
    ensures storage.Some? <==> r.status == 200
    ensures storage.Some? ==> r.body == Collection([storage.value])
    ensures storage.None? ==> r == Response(404, Empty)
  {
    match storage
    case Some(s) => Response(200, Collection([s]))
    case None => Response(404, Empty)
  }

  /** `GET /storage/:id`. */
  function Show(backend: StorageBackend, id: string): (r: Response)
    ensures r.status in {200, 404}
    ensures r.status == 404 <==> backend.get(id).None?
    ensures r.status == 404 ==> r.body == Empty
    ensures r.status == 200 ==> r.body == Collection([backend.get(id).value])
  {
    Found(backend.get(id))
  }

  function FirstResource(requested: seq<Storage>): (r: Option<Storage>)
    ensures r.None? <==> requested == []
    ensures r.Some? ==> r.value == requested[0]
  {
    if requested == [] then None else Some(requested[0])
  }

  /** `POST /storage/`: the first requested storage is created and the
      answer is a single link to its location. */
  function Create(backend: StorageBackend, requested: seq<Storage>, serverUrl: string): (r: Response)
    ensures r.status == 201
    ensures r.body.LinkOnly?
    ensures StartsWith(r.body.uri, StoragePrefix(serverUrl))
    ensures r.body.uri[|StoragePrefix(serverUrl)|..] == backend.create(FirstResource(requested))
  {
    var uri := StoragePrefix(serverUrl) + backend.create(FirstResource(requested));
    assert uri[|StoragePrefix(serverUrl)|..] == backend.create(FirstResource(requested));
    Response(201, LinkOnly(uri))
  }

  /** `POST /storage/?action=` and `POST /storage/:id?action=`. */
  function Trigger(): (r: Response)
    ensures r.status == 501 && r.body == Empty
  {
    Response(501, Empty)
  }

  /** The storage handed to the backend's update: the first requested one
      with its id replaced by the one in the path. */
  function ForcedInstance(requested: seq<Storage>, id: string): (r: Option<Storage>)
    ensures r.None? <==> requested == []
    ensures r.Some? ==> r.value == requested[0].(id := id)
  {
    match FirstResource(requested)
    case None => None
    case Some(s) => Some(s.(id := id))
  }

  /** `POST /storage/:id` and `PUT /storage/:id`. */
  function Update(backend: StorageBackend, requested: seq<Storage>, id: string): (r: Response)
    ensures r.status in {200, 304, 404}
    ensures r.status == 304 <==> !backend.update(ForcedInstance(requested, id))
    ensures r.status == 304 ==> r.body == Empty
    ensures r.status == 404 <==> backend.update(ForcedInstance(requested, id)) && backend.get(id).None?
    ensures r.status == 404 ==> r.body == Empty
    ensures r.status == 200 ==> r.body == Collection([backend.get(id).value])
  {
    if backend.update(ForcedInstance(requested, id)) then Found(backend.get(id))
    else Response(304, Empty)
  }

  /** `DELETE /storage/:id` deletes one storage, `DELETE /storage/` all. */
  function Delete(backend: StorageBackend, id: Option<string>): (r: Response)
    ensures r.body == Empty
    ensures r.status in {200, 304}
    ensures id.Some? ==> (r.status == 200 <==> backend.delete(id.value))
    ensures id.None? ==> (r.status == 200 <==> backend.deleteAll)
  {
    var result := if id.Some? then backend.delete(id.value) else backend.deleteAll;
    if result then Response(200, Empty) else Response(304, Empty)
  }
}

=== FILE: strings.dfy ===
/** Character classes and the handful of Ruby `String` operations the gateway
    relies on, restated over `seq<char>`.  Ruby's locale-dependent classes are
    restricted to ASCII here, except the `[[:space:]]` of `blank?`. */
module Strings {
  import opened Wrappers

  predicate IsUpper(c: char) { 'A' <= c <= 'Z' }
  predicate IsLower(c: char) { 'a' <= c <= 'z' }
  predicate IsDigit(c: char) { '0' <= c <= '9' }
  predicate IsAlnum(c: char) { IsUpper(c) || IsLower(c) || IsDigit(c) }
  predicate IsHex(c: char) { IsDigit(c) || 'a' <= c <= 'f' }

  /** A SHA-1 `hexdigest`: forty lower-case hexadecimal characters. */
  type HexDigest = s: string | |s| == 40 && forall i | 0 <= i < |s| :: IsHex(s[i])
    witness "0000000000000000000000000000000000000000"

  /** Ruby's `\w`: `[a-zA-Z0-9_]`. */
  predicate IsWordChar(c: char) { IsAlnum(c) || c == '_' }

  /** Ruby's whitespace for the awk-style `split(' ')`: the six ASCII
      whitespace characters only. */
  predicate IsSpace(c: char) {
    c == ' ' || c == '\t' || c == '\n' || c == '\r' || c == '\U{B}' || c == '\U{C}'
  }

  /** Ruby's `[[:space:]]` on a UTF-8 string, the class ActiveSupport's
      `blank?` matches: the characters with the Unicode White_Space
      property, which adds NEL, the no-break spaces, the typographic spaces
      of U+2000 to U+200A, the line and paragraph separators and the
      ideographic space to the ASCII ones. */
  predicate IsUnicodeSpace(c: char) {
    IsSpace(c) || c == '\U{85}' || c == '\U{A0}' || c == '\U{1680}' ||
    ('\U{2000}' <= c <= '\U{200A}') || c == '\U{2028}' || c == '\U{2029}' ||
    c == '\U{202F}' || c == '\U{205F}' || c == '\U{3000}'
  }

  /** ASCII `downcase` of one character. */
  function ToLower(c: char): (r: char)
    ensures !IsUpper(r)
    ensures IsUpper(c) ==> IsLower(r)
    ensures !IsUpper(c) ==> r == c
  {
    if IsUpper(c) then (c as int - 'A' as int + 'a' as int) as char else c
  }

  /** ASCII `downcase`. */
  function Downcase(s: string): (r: string)
    ensures |r| == |s|
    ensures forall i :: 0 <= i < |s| ==> r[i] == ToLower(s[i])
  {
    if |s| == 0 then [] else [ToLower(s[0])] + Downcase(s[1..])
  }

  predicate StartsWith(s: string, prefix: string) {
    |prefix| <= |s| && s[..|prefix|] == prefix
  }

  predicate EndsWith(s: string, suffix: string) {
    |suffix| <= |s| && s[|s| - |suffix|..] == suffix
  }

  /** `s.include?(sub)`. */
  predicate Contains(s: string, sub: string) {
    exists i | 0 <= i <= |s| - |sub| :: OccursAt(s, sub, i)
  }

  predicate OccursAt(s: string, sub: string, i: int) {
    0 <= i <= |s| - |sub| && s[i..i + |sub|] == sub
  }

  /** What a suffix of `s` contains, `s` contains. */
  lemma ContainsInSuffix(s: string, from: nat, sub: string)
    requires from <= |s| && Contains(s[from..], sub)
    ensures Contains(s, sub)
  {
    var k :| 0 <= k <= |s[from..]| - |sub| && OccursAt(s[from..], sub, k);
    assert OccursAt(s, sub, from + k);
  }

  predicate NoChar(s: string, c: char) {
    forall i :: 0 <= i < |s| ==> s[i] != c
  }

  /** The longest suffix of `s` free of `sep`. */
  function TrailingField(s: string, sep: char): (r: string)
    ensures |r| <= |s| && r == s[|s| - |r|..]
    ensures NoChar(r, sep)
    ensures |r| < |s| ==> s[|s| - |r| - 1] == sep
  {
    if |s| == 0 || s[|s| - 1] == sep then ""
    else TrailingField(s[..|s| - 1], sep) + [s[|s| - 1]]
  }

  /** `s` without its trailing run of `sep`. */
  function TrimEnd(s: string, sep: char): (r: string)
    ensures |r| <= |s| && r == s[..|r|]
    ensures forall i :: |r| <= i < |s| ==> s[i] == sep
    ensures |r| > 0 ==> r[|r| - 1] != sep
  {
    if |s| == 0 || s[|s| - 1] != sep then s else TrimEnd(s[..|s| - 1], sep)
  }

  /** `s.split(sep).last` for a one-character separator other than a space.
      Ruby drops trailing empty fields, so this is the last NON-EMPTY field:
      it is followed in `s` only by separators, preceded by a separator or
      the start, and it is `nil` exactly when `s` is all separators. */
  function LastField(s: string, sep: char): (r: Option<string>)
    ensures r.None? <==> forall i :: 0 <= i < |s| ==> s[i] == sep
    ensures r.Some? ==>
      var t := TrimEnd(s, sep);
      var f := r.value;
      |f| > 0 && NoChar(f, sep) && EndsWith(t, f) &&
      (|f| == |t| || t[|t| - |f| - 1] == sep)
  {
    var t := TrimEnd(s, sep);
    if |t| == 0 then None else Some(TrailingField(t, sep))
  }

  /** A separator-free suffix of `s` ends after any separator of `s`. */
  lemma SepFreeSuffixIsShort(s: string, f: string, n: nat, sep: char)
    requires |f| <= |s| && f == s[|s| - |f|..] && NoChar(f, sep)
    requires n < |s| && s[|s| - n - 1] == sep
    ensures |f| <= n
  {
  }

  /** The field after the last separator is what `LastField` yields, as
      long as it is non-empty. */
  lemma LastFieldAfterSeparator(prefix: string, field: string, sep: char)
    requires |field| > 0 && NoChar(field, sep)
    ensures LastField(prefix + [sep] + field, sep) == Some(field)
  {
    var s := prefix + [sep] + field;
    assert s[|s| - 1] == field[|field| - 1];
    var t := TrimEnd(s, sep);
    assert |t| == |s|;
    var f := LastField(s, sep).value;
    SepFreeSuffixIsShort(s, f, |field|, sep);
    SepFreeSuffixIsShort(s, field, |f|, sep);
    assert f == s[|s| - |f|..] == field;
  }

  /** `s.rpartition(c)` as the pair (before, after): split at the LAST
      occurrence of `c`; when `c` is absent Ruby yields `("", "", s)`. */
  function RPartition(s: string, c: char): (r: (string, string))
    ensures NoChar(r.1, c)
    ensures if NoChar(s, c) then r == ("", s) else s == r.0 + [c] + r.1
  {
    var after := TrailingField(s, c);
    if |after| == |s| then ("", s)
    else
      assert s == s[..|s| - |after| - 1] + [c] + after;
      (s[..|s| - |after| - 1], after)
  }

  /** `s.chomp(suffix)` for a one-character suffix: drops ONE trailing copy. */
  function ChompChar(s: string, c: char): (r: string)
    ensures if |s| > 0 && s[|s| - 1] == c then s == r + [c] else r == s
  {
    if |s| > 0 && s[|s| - 1] == c then s[..|s| - 1] else s
  }

  /** Argument-less `chomp`: drops one trailing "\r\n", "\n" or "\r". */
  function Chomp(s: string): (r: string)
    ensures s == r + "\r\n" || s == r + "\n" || s == r + "\r" || s == r
    ensures EndsWith(s, "\r\n") ==> s == r + "\r\n"
    ensures !EndsWith(s, "\n") && !EndsWith(s, "\r") ==> r == s
  {
    if EndsWith(s, "\r\n") then s[..|s| - 2]
    else if EndsWith(s, "\n") || EndsWith(s, "\r") then s[..|s| - 1]
    else s
  }

  /** A string whose last character ends no line is its own `chomp`. */
  lemma ChompWithoutLineEnd(s: string)
    requires |s| > 0 ==> s[|s| - 1] != '\n' && s[|s| - 1] != '\r'
    ensures Chomp(s) == s
  {
    if |s| > 0 {
      assert s[|s| - 1..] == [s[|s| - 1]];
    }
  }

  /** Length of the first line of `s`: the characters before the first `\n`. */
  function LineLength(s: string): (n: nat)
    ensures n <= |s|
    ensures NoChar(s[..n], '\n')
    ensures n < |s| ==> s[n] == '\n'
  {
    if |s| == 0 || s[0] == '\n' then 0
    else
      var n := 1 + LineLength(s[1..]);
      assert s[..n] == [s[0]] + s[1..][..n - 1];
      n
  }

  /** The first line ends at the first line break. */
  lemma LineLengthAt(s: string, m: nat)
    requires m < |s| && s[m] == '\n' && NoChar(s[..m], '\n')
    ensures LineLength(s) == m
  {
  }

  /** Length of the leading run of non-space characters. */
  function WordLength(s: string): (n: nat)
    ensures n <= |s|
    ensures forall i :: 0 <= i < n ==> !IsSpace(s[i])
    ensures n < |s| ==> IsSpace(s[n])
  {
    if |s| == 0 || IsSpace(s[0]) then 0 else 1 + WordLength(s[1..])
  }

  /** Awk-style `s.split(' ')`: fields separated by runs of whitespace,
      leading and trailing whitespace ignored. */
  function Words(s: string): seq<string>
    decreases |s|
  {
    if |s| == 0 then []
    else if IsSpace(s[0]) then Words(s[1..])
    else
      var n := WordLength(s);
      [s[..n]] + Words(s[n..])
  }

  function Concat(ws: seq<string>): string {
    if |ws| == 0 then "" else ws[0] + Concat(ws[1..])
  }

  /** `s` with every whitespace character removed. */
  function DropSpaces(s: string): string {
    if |s| == 0 then ""
    else if IsSpace(s[0]) then DropSpaces(s[1..])
    else [s[0]] + DropSpaces(s[1..])
  }

  lemma {:induction false} DropSpacesOfWord(s: string, n: nat)
    requires n <= |s|
    requires forall i :: 0 <= i < n ==> !IsSpace(s[i])
    ensures DropSpaces(s) == s[..n] + DropSpaces(s[n..])
  {
    if n > 0 {
      DropSpacesOfWord(s[1..], n - 1);
      assert s[1..][..n - 1] == s[1..n];
      assert s[1..][n - 1..] == s[n..];
      assert s[..n] == [s[0]] + s[1..n];
    }
  }

  /** Every field of the awk-style split is a non-empty run of non-space
      characters, and together they spell the input without its whitespace. */
  lemma {:induction false} WordsSpellInput(s: string)
    ensures forall w :: w in Words(s) ==> |w| > 0 && forall i :: 0 <= i < |w| ==> !IsSpace(w[i])
    ensures Concat(Words(s)) == DropSpaces(s)
    decreases |s|
  {
    if |s| == 0 {
    } else if IsSpace(s[0]) {
      WordsSpellInput(s[1..]);
    } else {
      var n := WordLength(s);
      WordsSpellInput(s[n..]);
      DropSpacesOfWord(s, n);
      assert Words(s) == [s[..n]] + Words(s[n..]);
      assert Concat(Words(s)) == s[..n] + Concat(Words(s[n..]));
    }
  }

  /** The fields of `s` between single whitespace characters, empty ones
      included: `n` whitespace characters make `n + 1` fields. */
  function Fields(s: string): (r: seq<string>)
    ensures |r| > 0
  {
    if |s| == 0 then [""]
    else if IsSpace(s[0]) then [""] + Fields(s[1..])
    else
      var f := Fields(s[1..]);
      [[s[0]] + f[0]] + f[1..]
  }

  /** The non-empty strings of a sequence, in order. */
  function NonEmpty(ws: seq<string>): seq<string> {
    if |ws| == 0 then [] else (if |ws[0]| > 0 then [ws[0]] else []) + NonEmpty(ws[1..])
  }

  lemma NonEmptyCons(w: string, ws: seq<string>)
    ensures NonEmpty([w] + ws) == (if |w| > 0 then [w] else []) + NonEmpty(ws)
  {
    assert ([w] + ws)[1..] == ws;
  }

  /** A leading run of non-space characters begins the first field. */
  lemma {:induction false} FieldsAfterPrefix(s: string, k: nat)
    requires k <= |s| && forall i :: 0 <= i < k ==> !IsSpace(s[i])
    ensures var h := Fields(s[k..]); Fields(s) == [s[..k] + h[0]] + h[1..]
  {
    if k == 0 {
      assert s[k..] == s;
      assert s[..k] + Fields(s)[0] == Fields(s)[0];
      assert Fields(s) == [Fields(s)[0]] + Fields(s)[1..];
    } else {
      FieldsAfterPrefix(s[1..], k - 1);
      var g := Fields(s[1..]);
      var h := Fields(s[k..]);
      assert s[1..][k - 1..] == s[k..];
      assert !IsSpace(s[0]);
      assert g[0] == s[1..][..k - 1] + h[0] && g[1..] == h[1..];
      assert [s[0]] + g[0] == s[..k] + h[0];
    }
  }

  /** A string of one word is its one non-empty field. */
  lemma OneWordFields(s: string)
    requires |s| > 0 && !IsSpace(s[0]) && WordLength(s) == |s|
    ensures Words(s) == NonEmpty(Fields(s)) == [s]
  {
    FieldsAfterPrefix(s, |s|);
    assert s[|s|..] == "" && s[..|s|] == s;
    assert Fields("") == [""] && s + "" == s;
    assert Fields(s) == [s] && [s] + [] == [s];
    assert Words(s) == [s] + Words("");
    NonEmptyCons(s, []);
  }

  /** The step of `WordsAreNonEmptyFields` for a word followed by a space. */
  lemma WordThenFields(s: string, n: nat)
    requires |s| > 0 && !IsSpace(s[0]) && n == WordLength(s) && n < |s|
    requires Words(s[n + 1..]) == NonEmpty(Fields(s[n + 1..]))
    ensures Words(s) == NonEmpty(Fields(s))
  {
    FieldsAfterPrefix(s, n);
    var t := s[n..];
    var rest := s[n + 1..];
    assert t[1..] == rest;
    assert Words(s) == [s[..n]] + Words(t);
    assert Words(t) == Words(rest);
    assert Fields(t) == [""] + Fields(rest);
    assert Fields(t)[0] == "" && Fields(t)[1..] == Fields(rest);
    assert s[..n] + "" == s[..n];
    assert Fields(s) == [s[..n]] + Fields(rest);
    NonEmptyCons(s[..n], Fields(rest));
  }

  /** Awk-style splitting is splitting at every whitespace character and
      dropping the empty fields. */
  lemma {:induction false} WordsAreNonEmptyFields(s: string)
    ensures Words(s) == NonEmpty(Fields(s))
    decreases |s|
  {
    if |s| == 0 {
    } else if IsSpace(s[0]) {
      WordsAreNonEmptyFields(s[1..]);
      NonEmptyCons("", Fields(s[1..]));
    } else {
      var n := WordLength(s);
      if n < |s| {
        WordsAreNonEmptyFields(s[n + 1..]);
        WordThenFields(s, n);
      } else {
        OneWordFields(s);
      }
    }
  }
}

=== FILE: wrappers.dfy ===
/** Option and Result, the two failure-carrying shapes the model uses in place
    of Ruby's `nil` and raised exceptions. */
module Wrappers {

  /** `None` stands for Ruby's `nil`. */
  datatype Option<+T> = None | Some(value: T) {
    function GetOr(default: T): T {
      match this
      case Some(v) => v
      case None => default
    }
  }

  /** `Err` stands for an exception raised by the modelled method. */
  datatype Result<+T, +E> = Ok(value: T) | Err(error: E)
}
